=== FILE: README.md ===
# Kiosk logic of the blood-pressure station

This project is a Dafny model of the sequential logic of a health-kiosk application and of the Arduino sketch that feeds it. The kiosk is a Kivy app, `AI.py`. The sketch is `BP.h`: an I2C receive handler and a serial formatter.

The widgets, threads and external tools are replaced by plain inputs. Tool output text, exit codes, exceptions, clock readings and file contents become parameters. The logic underneath is modelled as pure functions over immutable datatypes:

- **Wi-Fi screen.** Parses `nmcli` scan output into network records: keeps the first occurrence of each SSID, then sorts active-first, then by SSID. Renders rows and status text, toggles the expanded row, and guards scans with the `scanning` flag. Also covers the saved-profile lookup and the connect and disconnect flows, with each background worker's outcome given as input.
- **Connectivity probe.** Tests each line of `nmcli -t -f DEVICE,STATE dev` output.
- **Vitals screen.** Reads `SYS=DIA=BPM` lines from serial, shows the values, and classifies the reading with the kiosk's first-match threshold ladder.
- **Arduino parser.** The byte-driven capture of five-byte packets `[48, sys, dia, pulse, x]`, and `BP_getData`, which prints `s=d=p`. A lemma proves the kiosk's serial reader splits that line back into the three values.
- **Date and time settings.** The wrapping field counters, the AM/PM toggle, and the 12-hour to 24-hour conversion for the `date -s` text. The add-alarm popup uses the same counter rules.
- **Alarms.** The bounds-checked delete and the save that appends once per popup. The once-a-second check compares the clock's `HH:MM AM` text with each stored time. It raises the alert for the first match only, at most once per minute.
- **Patient history.** The list is newest-first and the log file is oldest-first. Saving, deleting and clearing keep the file the reverse of the list when their writes go through, and a restart reads the list back. A rewrite that fails after opening the file has already truncated it.

Python's string built-ins are written out with their exact semantics in the module `Text`. This covers `strip`, `split`, `int()` on ASCII digits, `f"{n:02d}"`, `str(n)`, string ordering and `upper()` (ASCII case only). `str.splitlines()` is in `WifiProbe`.

Where the original has two copies of a worker body one after the other, both copies run in the model. Nothing returns between them. Each worker is modelled as atomic: its direct writes happen, then the callbacks it posted are applied in posting order. Every worker posts all its callbacks with one delay, except the saved-profile worker; for that one, `WifiScreen.SavedSecondCopyDecides` covers both orders the clock can run them in.

Files: `options.dfy`, `text.dfy`, `wifi_scan.dfy`, `wifi_screen.dfy`, `wifi_probe.dfy`, `vitals.dfy`, `bp_packet.dfy`, `datetime_fields.dfy`, `alarms.dfy`, `history.dfy`.

## Model

| member | source | states |
|---|---|---|
| WifiScan.ScanLine | AI.py:353-361 | A line gives a record only if it has a `:`. The SSID is the stripped text after the first `:`; it is non-empty, unpadded and has no `--`. `active` is whether the text before the `:` lower-cases to `yes`. A line without `:` gives nothing. |
| WifiScan.ScanLineReadsRecord | AI.py:354-361 | Any `flag:ssid` line with trailing white space is read as exactly `(ssid, flag lower-cases to "yes")`, for every usable unpadded SSID. |
| WifiScan.ScanLineRejects | AI.py:356-359 | A line whose stripped SSID is empty or contains `--` contributes nothing. |
| WifiScan.Parsed | AI.py:353-361 | Each output line offers at most one record, in tool order, and every offered SSID is usable and unpadded. |
| WifiScan.Collect | AI.py:353-361 | The collected records never repeat an SSID and never reuse an SSID already in `found_ssids`. |
| WifiScan.CollectKeepsFirst | AI.py:359-361 | Every kept record is the first candidate with its SSID in tool order. The kept SSIDs are exactly the candidates' SSIDs that were not already found. So an active duplicate after an inactive one is dropped. |
| WifiScan.CollectOffered | AI.py:353-361 | Every kept record is a candidate line's record, and every candidate has a usable, unpadded SSID. |
| WifiScan.KeyLessTransitive | AI.py:372 | The sort key `(not active, ssid)` is a transitive order. |
| WifiScan.KeyLessTotal | AI.py:372 | Two different records are always ordered one way or the other by the key. |
| WifiScan.Insert | AI.py:372 | Inserting into a sorted list gives a sorted list holding the same records plus the new one. |
| WifiScan.InsertUnique | AI.py:372 | Inserting a record whose SSID is new keeps SSIDs unique. |
| WifiScan.Sort | AI.py:372 | The result is sorted by the key, is a permutation of the input, has the same SSIDs, and keeps SSIDs unique. |
| WifiScan.SortedPermutationUnique | AI.py:372 | Two sorted permutations of the same records are equal, so the scan order is fully determined. |
| WifiScan.SortIsTheSort | AI.py:372 | Any sorted permutation of the input is exactly what `Sort` returns. |
| WifiScan.ScanNetworks | AI.py:350-375 | The result holds exactly the SSIDs some line offers, each once, and each record is the first one offered for its SSID. SSIDs are usable and unpadded, and the list is sorted active-first, then by code-point order of the SSID. |
| WifiScan.ActiveFirst | AI.py:372 | In a scan result every active network comes before every inactive one. |
| WifiScan.FirstOccurrenceWins | AI.py:359-372 | The record kept for an SSID is its first occurrence in the tool output, and it is the only record with that SSID. |
| WifiScreen.Initial | AI.py:260-264 | A new screen is not scanning, has nothing expanded, and has no networks or rows. |
| WifiScreen.RowFor | AI.py:440-531 | The expanded network gets the expanded row; all others get a plain button. A plain button toggles expansion for an active network and starts connecting for an inactive one. The caption starts with the SSID and is the connected label exactly for active or expanded rows. |
| WifiScreen.Rows | AI.py:440-531 | There is one row per network, in list order. |
| WifiScreen.Render | AI.py:431-531 | Rendering clears `scanning` and changes only the rows and the status. Switch off: no rows and "Wi-Fi is turned off.". No networks: "No networks found.". Otherwise the found-count status and one row per network. |
| WifiScreen.AtMostOneExpanded | AI.py:440-450 | With unique SSIDs, at most one rendered row is expanded. |
| WifiScreen.ToggleExpanded | AI.py:536-539 | Tapping the expanded SSID collapses it; tapping any other SSID expands that one. |
| WifiScreen.ToggleTwice | AI.py:536-539 | Two taps on the same SSID restore a state that was collapsed or expanded on that SSID; if another SSID was expanded, nothing stays expanded. |
| WifiScreen.ToggleClearsScanning | AI.py:534-542 | A toggle applies the expansion rule and clears `scanning`, because it re-renders. |
| WifiScreen.ScanWifi | AI.py:305-317 | A scan already running means nothing happens. Switch off: only the "Wi-Fi is off" status. Otherwise the scan is marked running, the expansion is cleared, the rows are emptied, the scanning status is shown, and one scan job starts. |
| WifiScreen.ScanTwice | AI.py:305-317 | A second scan request while the first runs starts nothing. |
| WifiScreen.OnEnter | AI.py:266-274 | Entering shows the list page. Switch off: empty list and "Wi-Fi is disabled.". Switch on with a scan already running: nothing else changes and no job starts. Switch on and no scan running: one scan job starts, `scanning` is set, the expansion and rows are cleared, the cached list is kept and the status reads "Scanning for networks...". |
| WifiScreen.SwitchChanged | AI.py:282-291 | The radio command always comes first. Off: empty list, "Wi-Fi is turned off.", scanning cleared. On: a scan starts unless one is already running, in which case the status reads "Enabling Wi-Fi...". |
| WifiScreen.HasSavedProfile | AI.py:579-589 | A failed profile query means no profile. |
| WifiScreen.SavedProfileIsMembership | AI.py:585-587 | For a profile list printed one name per line, the lookup is exactly membership in the list, with no substring matches. |
| WifiScreen.ShowPasswordScreen | AI.py:605-615 | The password page opens for the SSID with an empty field; nothing else changes except the prompt. |
| WifiScreen.PrepareConnectionEvent | AI.py:592-602 | A saved profile starts the saved-connection job with its status. Otherwise the password page opens for that SSID. |
| WifiScreen.CancelPassword | AI.py:658-660 | Cancelling returns to the list page with an empty field and keeps everything else. |
| WifiScreen.EditPassword | AI.py:663-666 | Stands for the keyboard handlers that write the password field, which `connect_wifi` reads: the field holds the typed text. |
| WifiScreen.ConnectWifi | AI.py:663-668 | Connecting starts one job with the selected SSID and the typed password, shows "Connecting to …", returns to the list page, and does not clear the field. |
| WifiScreen.DisconnectWifi | AI.py:545-549 | Disconnecting starts one job and changes only the status. |
| WifiScreen.ApplyCallback | AI.py:427-429 | A fallback callback shows the password page with the fallback status, a rescan callback is a scan request, and a render callback renders. |
| WifiScreen.DoubleRescanScansOnce | AI.py:560-572 | The two rescans posted by the doubled worker bodies start a single scan. |
| WifiScreen.ScanWorker | AI.py:320-424 | A copy-one failure other than a timeout posts "Scan Error", clears `scanning` and ends the worker. Otherwise both copies run. A failed second listing posts "Scan Error or Wi-Fi Off" after the first render. A successful one replaces the cached list. |
| WifiScreen.ScanResolves | AI.py:320-424 | After the worker and its callbacks, `scanning` is false, no job is pending, and the status and list match the outcome. On success the list is the second listing's scan result. |
| WifiScreen.DisconnectWorker | AI.py:551-572 | The worker always calls `connection down id` and then `connection down` for the SSID, changes no state, and posts two rescans whatever happened. |
| WifiScreen.AfterSavedAttempt | AI.py:622-632 | A saved-profile attempt is followed by a rescan exactly when it exits with 0. Otherwise the password fallback follows for that SSID. |
| WifiScreen.SavedConnectWorker | AI.py:618-650 | Both copies try connect-by-id, then connect-by-name. Each posts its own follow-up, and no password is sent. |
| WifiScreen.ConnectWorker | AI.py:671-734 | The worker deletes the old profile, then connects with the password; the connect is skipped in copy one if the delete raised. Both copies post a rescan whatever the exit status. |
| WifiScreen.SavedProfileFlow | AI.py:592-655 | With a saved profile, no password is ever sent. A failed first attempt leads to the password page for that SSID with an empty field and the fallback status. A successful one leads to a rescan. |
| WifiScreen.NoProfileFlow | AI.py:592-602 | With no profile, or a failed lookup, the password page opens at once and no job starts. |
| WifiScreen.SavedSecondCopyDecides | AI.py:636-650 | Because the second copy runs too, a success followed by a failure ends on the password page for that SSID in either order the two callbacks run. In posting order the fallback status stays; with the fallback first, a rescan that starts a scan shows the scanning status. |
| WifiScreen.PasswordConnectEndsInRescan | AI.py:663-734 | A password connect always ends with a connect attempt followed by one scan, whether it succeeds or not. |
| WifiScreen.DisconnectEndsInRescan | AI.py:545-572 | A disconnect always ends in one scan. |
| WifiProbe.SplitLines | AI.py:155 | No line contains a line boundary, and only empty text gives no lines. |
| WifiProbe.AnyConnected | AI.py:155-159 | The probe answer is whether some line names a Wi-Fi device and the connected state. |
| WifiProbe.WifiConnected | AI.py:152-161 | A failed probe reports "not connected". Otherwise the answer is whether some line of the output passes the line test. |
| WifiProbe.SplitLinesCons | AI.py:155 | A break-free line followed by a newline is split off as its own line. |
| WifiProbe.ProbeFirstLine | AI.py:155-159 | The answer for a first line and the rest is the first line's test, or the answer for the rest. |
| WifiProbe.ProbeOneLine | AI.py:155-159 | For a single line, the answer is that line's test. |
| Vitals.Classify | AI.py:1057-1077 | "Optimal" exactly when systolic is below 120 and diastolic below 80; every other category implies the reading is not optimal. Each other category implies its own band: Normal 120..129 or 80..84, High Normal 130..139 or 85..89, Grade 1 140..159 or 90..99, Grade 2 160..179 or 100..109, Grade 3 above 180 or above 110, isolated systolic above 140 with diastolic below 90. |
| Vitals.IsolatedSystolicOnlyAt180 | AI.py:1057-1074 | The isolated-systolic band is reached exactly when systolic is 180 and diastolic is below 80. |
| Vitals.UnclassifiedReadings | AI.py:1057-1077 | No band takes a reading exactly when diastolic is 110 and systolic is below 120 or exactly 180, e.g. (180,110) and (100,110). |
| Vitals.Grade3Reached | AI.py:1057-1071 | Grade 3 is shown exactly for a reading above 180/110 that no earlier or-band took. |
| Vitals.NormalReached | AI.py:1057-1062 | Normal is shown exactly when the reading is not optimal and lies in the Normal band: the earlier band wins an overlap. |
| Vitals.HighNormalReached | AI.py:1057-1065 | High Normal is shown exactly when the reading lies in its band and neither the optimal nor the Normal band matched. |
| Vitals.Grade1Reached | AI.py:1057-1068 | Grade 1 is shown exactly when the reading lies in its band and no earlier band matched. |
| Vitals.Grade2Reached | AI.py:1057-1071 | Grade 2 is shown exactly when the reading lies in its band and no earlier band matched. |
| Vitals.OverlapTakesEarlierBand | AI.py:1057-1062 | (125, 86) and (125, 105) are Normal, although they also lie in the High Normal and Grade 2 bands. |
| Vitals.ReadSerialLine | AI.py:1027-1034 | A line is read only if its stripped form is neither empty nor `Err`. The three fields are `=`-free and join with `=` back into the stripped line. |
| Vitals.ReadSerialFields | AI.py:1027-1031 | Three `=`-free fields joined by `=`, with trailing white space, are read back as exactly those fields. |
| Vitals.UpdateLabels | AI.py:1044-1079 | Any `Err` field shows "Error" in all three value labels and keeps the classification. Otherwise the fields are shown. The classification follows the ladder when both parse and a band matches, and is unchanged otherwise. |
| Vitals.OnSerialLine | AI.py:1027-1034 | A line that is not read changes nothing. A read line always replaces the kept fields with its three `=`-separated parts, monitoring or not. Only while monitoring are the labels updated from them; otherwise the labels stay. |
| Vitals.EnterScreen | AI.py:860-890 | Entering keeps the fields. With unsaved data the labels are redrawn from the kept fields; otherwise all four labels show their placeholders `-SYSTOLIC-`, `-DIASTOLIC-`, `-HEART RATE-` and `----`. |
| Vitals.UnmonitoredLineReshown | AI.py:1027-1034 | A line read while not monitoring leaves the labels alone, but re-entering with unsaved data shows its values. |
| Vitals.ClassifiedReading | AI.py:1054-1077 | Integer fields show the category of their values. |
| Vitals.PortFailureShowsError | AI.py:1039-1048 | A serial-port failure shows "Error" and keeps the classification. |
| BpPacket.Boot | BP.h:15-28 | The zero-initialised globals satisfy the parser invariant and are not capturing. |
| BpPacket.ParseByte | BP.h:39-69 | The invariant holds: count at most 4, and zero when idle, so every `bp_data` write is in bounds. A header always restarts capture. An idle non-header byte changes nothing. A fifth byte after the header sets sys/dia/bpm from bytes 1..3, clears capture and sets the final flag. |
| BpPacket.Feed | BP.h:39-69 | Any run of bytes keeps the parser invariant. |
| BpPacket.FeedAppend | BP.h:36-69 | Splitting the byte stream across receive events changes nothing, so a packet may span events. |
| BpPacket.PacketDelivers | BP.h:50-69 | A header, three values and a non-header fifth byte deliver exactly those values, with the final flag set, from any state. |
| BpPacket.HeaderRestarts | BP.h:50-58 | A byte 48 restarts the packet even in the middle of one. |
| BpPacket.IdleNoise | BP.h:50-55 | Non-header bytes while idle leave the parser unchanged. |
| BpPacket.Receive | BP.h:34-76 | The handler's loop equals the byte-by-byte parse. `raw_len` is the smaller of the event's byte count and 10, the raw buffer starts with those bytes in order and keeps its other cells, and `raw_ready` is set. |
| BpPacket.GetData | BP.h:103-114 | A final reading prints `s=d=p` and a line ending, once, and clears the flag. With no final reading, nothing is printed. |
| BpPacket.PrintedOnce | BP.h:103-114 | A second call right after prints nothing. |
| BpPacket.SerialRoundTrip | BP.h:110-111 | The printed line is read by the kiosk as three fields that parse back to s, d and p. |
| BpPacket.PacketReachesKiosk | BP.h:50-114 | A packet on the bus reaches the kiosk as its three values. |
| Text.SplitFirst | AI.py:355 | `split(sep, 1)` cuts at the first separator: the head has no separator, and head, separator and tail rebuild the text. |
| Text.Upper | AI.py:2061 | Upper-casing keeps the length and maps each character on its own. |
| Text.Pad2 | AI.py:1779 | `f"{n:02d}"` of a number below 100 is two digits that spell that number. |
| Text.JoinSplit | AI.py:1031 | Joining the pieces of a split gives back the text. |
| Text.SplitJoin | AI.py:1031 | Splitting separator-free pieces joined by the separator gives back the pieces. |
| Text.ParseFormatted | AI.py:1054-1055 | `int(str(i)) == i` for every integer. |
| Text.ParsePad2 | AI.py:1779 | A two-digit field reads back as the number written. |
| Text.StripTrailingPadding | AI.py:1027 | Stripping removes exactly the trailing white space from unpadded text. |
| Text.LexLessTransitive | AI.py:372 | Python string ordering is transitive. |
| Text.LexLessTotal | AI.py:372 | Python string ordering is total on distinct strings. |
| DateTimeFields.Wrap | AI.py:1776-1778 | The result is in range, in-range values are kept, overshoot lands on the bottom and undershoot on the top. |
| DateTimeFields.StepCounter | AI.py:1775-1800 | A press fails exactly when the text is not an integer. Otherwise it gives two digits in range that read back as the wrapped value. |
| DateTimeFields.TwoDigitsCanonical | AI.py:1779 | Two digits are exactly the zero-filled form of their value. |
| DateTimeFields.StepUpThenDown | AI.py:1775-1800 | Up then down restores any in-range counter, across the wrap too. |
| DateTimeFields.ToggleAmPm | AI.py:1787-1788 | AM becomes PM, anything else becomes AM. |
| DateTimeFields.ToggleTwice | AI.py:1787-1788 | Toggling AM/PM twice gives back AM or PM. |
| DateTimeFields.AdjustTime | AI.py:1769-1804 | Only the chosen field changes. It fails only on an unparsable counter or year. A counter becomes two digits in its range that read back as its value plus the step, wrapped to the far end of the range. The year is the stepped value. AM/PM toggles. Unknown names do nothing. |
| DateTimeFields.StepYear | AI.py:1802-1804 | The year is `str` of the stepped value without a range; nothing else changes. |
| DateTimeFields.StepField | AI.py:1775-1800 | A counter press fails exactly when the field is not an integer. Otherwise it writes two digits in range that read back as the old value plus the step, wrapped, and keeps every other field. |
| DateTimeFields.AdjustKeepsWellFormed | AI.py:1769-1804 | From a well-formed display, every press succeeds and keeps hour and month in 1..12, minute in 0..59 and day in 1..31 as two digits, and AM/PM proper. |
| DateTimeFields.From24 | AI.py:1761-1762 | `%I`/`%p` give an hour in 1..12 and AM or PM. |
| DateTimeFields.To24OfFrom24 | AI.py:1811-1815 | Converting a clock hour to 12-hour form and back gives the hour. |
| DateTimeFields.From24OfTo24 | AI.py:1811-1815 | Every 12-hour hour and meridiem maps into 0..23 and back, so the conversion is a bijection. |
| DateTimeFields.OnEnter | AI.py:1759-1767 | The display read from a clock is well-formed. |
| DateTimeFields.SetTimeText | AI.py:1811-1819 | The save fails exactly when the hour is not an integer. Otherwise the text is `Y-M-D HH:MM:00` with the converted hour. |
| DateTimeFields.SetTimeHour | AI.py:1811-1817 | For a well-formed display, the written hour is two digits of an hour of the day that maps back to the shown hour and meridiem. |
| DateTimeFields.SaveUnchanged | AI.py:1759-1819 | Entering and saving without a change writes the clock back as read. |
| DateTimeFields.AdjustPopup | AI.py:1843-1866 | The popup follows the settings screen's rules for hour, minute and AM/PM, and ignores other names. |
| DateTimeFields.PopupKeepsWellFormed | AI.py:1843-1866 | The popup's labels stay well-formed under every press. |
| Alarms.RemoveAt | AI.py:1946 | Removing shifts the later entries down by one and keeps the earlier ones. |
| Alarms.DeleteAlarm | AI.py:1940-1947 | An in-range index removes that entry and the file gets the new list. Any other index changes nothing. |
| Alarms.DeleteRemovesOne | AI.py:1944-1947 | The entries left plus the one removed are the entries there were. |
| Alarms.ShowAddPopup | AI.py:1949-1953 | Opening the popup unlocks the save and keeps the list. |
| Alarms.SaveFromPopup | AI.py:1969-1995 | Unlocked: the popup's time is appended as an active alarm, the file gets the list, and the lock closes. Locked: nothing changes. |
| Alarms.SaveTwiceAddsOnce | AI.py:1973-1975 | However often save fires for one popup, one alarm is added. |
| Alarms.PopupAddsOne | AI.py:1949-1995 | Opening and saving appends exactly one alarm, at the end. |
| Alarms.Scan | AI.py:2060-2072 | An alert is raised exactly when some entry is the first match and no entry before it raised an error, and this minute was not served yet. The alert is the current minute, which becomes the remembered one; otherwise the memory is kept. |
| Alarms.FirstHitTail | AI.py:2060-2072 | Past a non-matching entry, the first match of the rest is the first match of the whole. |
| Alarms.NoHitAfterFailure | AI.py:2060-2075 | An entry that raises hides every later match. |
| Alarms.AlarmCheck | AI.py:2043-2075 | A missing or unreadable file raises nothing and keeps the memory. Otherwise the check scans the entries against the normalised clock text. |
| Alarms.SameMinuteFiresOnce | AI.py:2066-2068 | A second check in the same minute raises nothing. |
| Alarms.PopupTextNormal | AI.py:1983-1985 | A popup time is unchanged by `strip().upper()`. |
| Alarms.PopupTimeIsClockText | AI.py:1983-1985 | A popup time equals the `%I:%M %p` text of one time of day. |
| Alarms.SavedFileHits | AI.py:1969-1995 | The file written by a popup save always has a first match for the popup's own time, because every entry it writes is an object. |
| Alarms.SavedAlarmFires | AI.py:1969-2072 | An alarm saved from the popup is raised when the clock reaches its minute, unless that minute was already served. |
| History.Reverse | AI.py:1205 | The reversal has the list's entries in opposite order. |
| History.SaveReading | AI.py:1086-1109 | Nothing is saved while the label shows "Error" or its placeholder. Otherwise the entry goes to the front of the list, and to the end of the file when the write succeeds. |
| History.FirstIndex | AI.py:1194-1195 | The position found is the first occurrence. |
| History.RemoveFirst | AI.py:1194-1195 | A present entry loses exactly its first occurrence; an absent one leaves the list unchanged. |
| History.DeleteRecord | AI.py:1189-1208 | The list loses the first occurrence. A completed rewrite makes the file the list reversed, present or not. Only an `open` that raises keeps the old file. A write that raises after the open leaves the start of the reversed list, so the old contents are lost. |
| History.Rewrite | AI.py:1201-1208 | A completed rewrite holds the new lines. A failed open keeps the old file. A failed write leaves a prefix of the new lines, as long as the lines written. |
| History.FailedRewriteKeepsOldest | AI.py:1189-1208 | After a delete whose rewrite fails after k lines, a restart reads back only the k oldest remaining entries. |
| History.ClearHistory | AI.py:1259-1271 | The list is emptied. The file is emptied too unless the `open` itself raises, since opening for writing truncates it. |
| History.DeleteRemovesOne | AI.py:1194-1195 | Deleting a present record removes one copy of it. |
| History.SaveKeepsMirror | AI.py:1105-1109 | Insert-at-front plus append keeps the file the list reversed. |
| History.ClearKeepsMirror | AI.py:1264-1271 | Clearing keeps the file the list reversed. |
| History.NonBlank | AI.py:2019 | The loaded lines are non-empty and unpadded. |
| History.LoadHistory | AI.py:2016-2020 | A missing file gives an empty list; otherwise the stripped non-blank lines, reversed. |
| History.NonBlankClean | AI.py:2019 | Clean lines pass the blank filter unchanged. |
| History.RestartRestores | AI.py:2019-2020 | Loading a mirrored file gives back the list when entries are clean. |
| History.ReadingEntryClean | AI.py:1101 | Every reading entry is clean when its parts are on one line. |
| History.SavedReadingSurvivesRestart | AI.py:1105-1109 | A saved reading is read back first after a restart. |

## Left out

- Widgets, colours, sizes, popups and screen navigation are left out. Only row descriptors, status strings and the Wi-Fi subpage name are kept.
- The Windows branches (`netsh` raw substring checks at AI.py:146-147 and AI.py:332) are placeholders and are not modelled.
- Threads, `Clock.schedule_once` delays and the interleaving of workers with the UI are left out. A worker is one atomic step followed by its callbacks, applied in posting order. Kivy's clock runs callbacks by due time instead; the two differ only where one worker posts with different delays (AI.py:647 and AI.py:650), and that case is proved for both orders.
- The `time.time()` debounces and the on-screen keyboard handlers are left out; `WifiScreen.EditPassword` stands for their writes to the password field.
- The vitals screen's buttons, its status texts and the `has_unsaved_data` and `is_monitoring` flags are inputs, not state: `Vitals.OnSerialLine` and `Vitals.EnterScreen` take them as parameters.
- `subprocess`/`os.system` calls (nmcli, `date -s`, hwclock, shutdown, reboot) are left out. Only their output text, exit status or exception is modelled, as inputs.
- The Ollama chat client, JSON file I/O and `clean_response` (AI.py:66-72) are left out. `clean_response` depends on non-greedy regular-expression semantics.
- The serial-port open and read loop are left out. Only the per-line handling is modelled.
- I2C registration (BP.h:79-83), the `onRequest` packet counter and ISR concurrency are left out.
- BpPacket.Byte: the signedness of `char` is implementation-defined, so bytes are taken as 0..255.
- The initial status text of the Wi-Fi screen comes from the layout file and is taken to be empty.
- Text.ParseInt does not accept underscores or non-ASCII digits, which Python's `int()` also accepts.
- Text.Upper maps ASCII letters only; the alarm times it is applied to are ASCII.
- History.LoadHistory takes the log file as a sequence of lines; an entry spanning several lines is not modelled, which is why the round trip requires one-line entries.
- History.SaveReading: a failed append is taken to leave the file unchanged; a partial line from an append that raises midway is not modelled.
- History.Rewrite: a write that raises midway leaves a prefix of the lines; a partially written last line from buffering is not modelled.
- Alarms.DeleteAlarm and Alarms.SaveFromPopup assume the alarm file write succeeds; a failing `save_alarms` is not modelled.
- A stored `time` that is not text makes `strip()` raise. Such an entry is represented as `NotAnObject`, which ends the scan in the same way.
- The display-only paths are left out: the history rows, the "No alarms set." label and the classification colours.

=== FILE: alarms.dfy ===
/** The medication-alarm schedule: the alarm screen's list with its delete and
    its one-shot save from the add-alarm popup, and the once-a-second service
    that compares the clock's `HH:MM AM` text with the stored alarm times and
    raises the alert at most once per matching minute. */
module Alarms {
  import opened Options
  import opened Text
  import opened DateTimeFields

  /** One alarm record: its time text, its active flag and its title. */
  datatype Alarm = Alarm(time: string, active: bool, title: string)

  /** The alarm screen: the list it shows, the save lock, and the list as last
      written to the alarm file. */
  datatype AlarmScreen = AlarmScreen(alarms: seq<Alarm>, processing: bool, stored: seq<Alarm>)

  /** The list with entry `index` taken out. */
  function RemoveAt(s: seq<Alarm>, index: nat): (r: seq<Alarm>)
    requires index < |s|
    ensures |r| == |s| - 1
    ensures forall k :: 0 <= k < index ==> r[k] == s[k]
    ensures forall k :: index <= k < |r| ==> r[k] == s[k + 1]
  {
    s[..index] + s[index + 1..]
  }

  /** `delete_alarm`: an index inside the list removes that entry and the list
      is written to the file; any other index changes nothing. */
  function DeleteAlarm(s: AlarmScreen, index: int): (r: AlarmScreen)
    ensures 0 <= index < |s.alarms| ==> r == s.(alarms := RemoveAt(s.alarms, index), stored := RemoveAt(s.alarms, index))
    ensures !(0 <= index < |s.alarms|) ==> r == s
  {
    if 0 <= index < |s.alarms| then
      var rest := RemoveAt(s.alarms, index);
      s.(alarms := rest, stored := rest)
    else s
  }

  /** Deleting removes exactly the chosen entry: the entries left and the one
      taken out are together the entries there were. */
  lemma DeleteRemovesOne(s: AlarmScreen, index: int)
    requires 0 <= index < |s.alarms|
    ensures multiset(DeleteAlarm(s, index).alarms) + multiset{s.alarms[index]} == multiset(s.alarms)
  {
    var a := s.alarms;
    assert a == a[..index] + [a[index]] + a[index + 1..];
    assert multiset(a) == multiset(a[..index]) + multiset{a[index]} + multiset(a[index + 1..]);
  }

  /** `show_add_alarm_popup`: a fresh popup opens the save lock. */
  function ShowAddPopup(s: AlarmScreen): (r: AlarmScreen)
    ensures !r.processing
    ensures r.alarms == s.alarms && r.stored == s.stored
  {
    s.(processing := false)
  }

  /** The record the popup's save appends. */
  function NewAlarm(p: PopupClock): Alarm {
    Alarm(AlarmTimeText(p), true, "Medical Alert")
  }

  /** `execute_one_shot_save`: with the lock open, the popup's time is appended
      as an active alarm, the list is written, and the lock closes; with the
      lock closed nothing happens. */
  function SaveFromPopup(s: AlarmScreen, p: PopupClock): (r: AlarmScreen)
    ensures r.processing
    ensures s.processing ==> r == s
    ensures !s.processing ==> r.alarms == s.alarms + [NewAlarm(p)] && r.stored == r.alarms
  {
    if s.processing then s
    else
      var alarms := s.alarms + [NewAlarm(p)];
      s.(processing := true, alarms := alarms, stored := alarms)
  }

  /** However often the save button fires for one popup, one alarm is added. */
  lemma SaveTwiceAddsOnce(s: AlarmScreen, p: PopupClock, q: PopupClock)
    ensures SaveFromPopup(SaveFromPopup(s, p), q) == SaveFromPopup(s, p)
  {
  }

  /** Opening the popup and saving adds exactly one alarm, at the end. */
  lemma PopupAddsOne(s: AlarmScreen, p: PopupClock)
    ensures var r := SaveFromPopup(ShowAddPopup(s), p);
      |r.alarms| == |s.alarms| + 1 && r.alarms[..|s.alarms|] == s.alarms
      && r.alarms[|s.alarms|] == NewAlarm(p)
  {
    var r := SaveFromPopup(ShowAddPopup(s), p);
    assert r.alarms == s.alarms + [NewAlarm(p)];
  }

  // ---------------------------------------------------------------------------
  // the alarm service
  // ---------------------------------------------------------------------------

  /** One element of the alarm file as the service sees it: an object with or
      without a `time` text, or anything else (reading its `time` raises). */
  datatype StoredEntry = Entry(time: Option<string>) | NotAnObject

  /** The file contents the screen writes for a list of alarms. */
  function Entries(alarms: seq<Alarm>): (r: seq<StoredEntry>)
    ensures |r| == |alarms|
    ensures forall k :: 0 <= k < |r| ==> r[k] == Entry(Some(alarms[k].time))
  {
    seq(|alarms|, k requires 0 <= k < |alarms| => Entry(Some(alarms[k].time)))
  }

  /** `.strip().upper()`, applied to both the clock text and each alarm time. */
  function Normalize(s: string): string {
    Upper(Strip(s))
  }

  /** What the loop compares for one entry: `None` when reading its `time`
      raises, otherwise the normalised time text (empty when it is missing). */
  function Target(e: StoredEntry): Option<string> {
    match e
    case NotAnObject => None
    case Entry(time) => Some(Normalize(time.GetOr("")))
  }

  /** The targets of the file's entries, in order. */
  function Targets(es: seq<StoredEntry>): (r: seq<Option<string>>)
    ensures |r| == |es|
  {
    if es == [] then [] else [Target(es[0])] + Targets(es[1..])
  }

  lemma {:induction false} TargetsAt(es: seq<StoredEntry>, k: int)
    requires 0 <= k < |es|
    ensures Targets(es)[k] == Target(es[k])
    decreases k
  {
    if k > 0 {
      TargetsAt(es[1..], k - 1);
    }
  }

  /** The target at `k` is the first hit, and no target before it raised. */
  predicate FirstHitAt(ts: seq<Option<string>>, now: string, k: int) {
    && 0 <= k < |ts|
    && ts[k] == Some(now)
    && (forall j :: 0 <= j < k ==> ts[j].Some? && ts[j] != Some(now))
  }

  /** The outcome of one check: the alarm raised, if any, and the remembered
      last-triggered minute. */
  datatype Check = Check(fired: Option<string>, last: string)

  /** The loop of `service_alarm_check` over the entries: the first hit ends
      the loop and raises the alert unless the minute was already served; an
      entry that raises ends the loop with nothing raised. */
  function Scan(entries: seq<StoredEntry>, now: string, last: string): (r: Check)
    ensures r.fired.Some? <==> last != now && exists k :: FirstHitAt(Targets(entries), now, k)
    ensures r.fired.Some? ==> r.fired.value == now && r.last == now
    ensures r.fired.None? ==> r.last == last
  {
    if entries == [] then Check(None, last)
    else
      var ts := Targets(entries);
      assert ts == [Target(entries[0])] + Targets(entries[1..]);
      match Target(entries[0])
      case None =>
        NoHitAfterFailure(ts, now);
        Check(None, last)
      case Some(t) =>
        if t == now then
          assert FirstHitAt(Targets(entries), now, 0);
          if last != now then Check(Some(now), now) else Check(None, last)
        else
          FirstHitTail(ts, now);
          Scan(entries[1..], now, last)
  }

  /** An entry that raises, placed first, hides every later hit. */
  lemma NoHitAfterFailure(ts: seq<Option<string>>, now: string)
    requires |ts| > 0 && ts[0].None?
    ensures !exists k :: FirstHitAt(ts, now, k)
  {
    if exists k :: FirstHitAt(ts, now, k) {
      var k :| FirstHitAt(ts, now, k);
      assert k == 0 || ts[0].Some?;
    }
  }

  /** Past a first entry that is an object and misses, the first hit of the
      rest is the first hit of the whole, one place later. */
  lemma FirstHitTail(ts: seq<Option<string>>, now: string)
    requires |ts| > 0 && ts[0].Some? && ts[0] != Some(now)
    ensures (exists k :: FirstHitAt(ts, now, k)) <==> (exists k :: FirstHitAt(ts[1..], now, k))
  {
    var tail := ts[1..];
    if exists k :: FirstHitAt(ts, now, k) {
      var k :| FirstHitAt(ts, now, k);
      assert k > 0;
      assert tail[k - 1] == ts[k];
      forall j | 0 <= j < k - 1
        ensures tail[j].Some? && tail[j] != Some(now)
      {
        assert tail[j] == ts[j + 1];
      }
      assert FirstHitAt(tail, now, k - 1);
    }
    if exists k :: FirstHitAt(tail, now, k) {
      var k :| FirstHitAt(tail, now, k);
      assert ts[k + 1] == tail[k];
      forall j | 0 <= j < k + 1
        ensures ts[j].Some? && ts[j] != Some(now)
      {
        if j > 0 {
          assert ts[j] == tail[j - 1];
        }
      }
      assert FirstHitAt(ts, now, k + 1);
    }
  }

  /** `service_alarm_check`: `None` is a missing or unreadable alarm file. */
  function AlarmCheck(file: Option<seq<StoredEntry>>, clock: string, last: string): (r: Check)
    ensures file.None? ==> r == Check(None, last)
    ensures file.Some? ==> r == Scan(file.value, Normalize(clock), last)
  {
    match file
    case None => Check(None, last)
    case Some(entries) => Scan(entries, Normalize(clock), last)
  }

  /** The once-per-minute guard: a second check in the same minute, with the
      minute the first one remembered, raises nothing. */
  lemma SameMinuteFiresOnce(file: Option<seq<StoredEntry>>, clock: string, last: string)
    ensures var first := AlarmCheck(file, clock, last);
      AlarmCheck(file, clock, first.last).fired.None?
  {
  }

  /** `strftime("%I:%M %p")` of a 24-hour time. */
  function ClockText(hour24: int, minute: int): string
    requires 0 <= hour24 < 24
  {
    var (h, m) := From24(hour24);
    Pad2(h) + ":" + Pad2(minute) + " " + m
  }

  /** A popup time is already in normal form. */
  lemma PopupTextNormal(p: PopupClock)
    requires PopupWellFormed(p)
    ensures Normalize(AlarmTimeText(p)) == AlarmTimeText(p)
  {
    var t := AlarmTimeText(p);
    assert t[0] == p.hour[0] && IsDigit(t[0]);
    assert t[|t| - 1] == 'M';
    StripUnpadded(t);
    forall i | 0 <= i < |t|
      ensures UpperChar(t[i]) == t[i]
    {
      if i < 2 { assert t[i] == p.hour[i]; }
      else if 3 <= i < 5 { assert t[i] == p.minute[i - 3]; }
      else if i >= 6 { assert t[i] == p.ampm[i - 6]; }
    }
  }

  /** The popup's time names the clock minute the kiosk shows at that time of
      day: the hour and meridiem as a 24-hour hour, the minute as its value. */
  lemma PopupTimeIsClockText(p: PopupClock)
    requires PopupWellFormed(p)
    ensures var h := To24(DigitsValue(p.hour), p.ampm);
      0 <= h < 24 && ClockText(h, DigitsValue(p.minute)) == AlarmTimeText(p)
  {
    From24OfTo24(DigitsValue(p.hour), p.ampm);
    TwoDigitsCanonical(p.hour);
    TwoDigitsCanonical(p.minute);
  }

  /** When no entry raises, any hit gives a first hit. */
  lemma HitGivesFirstHit(ts: seq<Option<string>>, now: string, n: int)
    requires 0 <= n < |ts| && ts[n] == Some(now)
    requires forall j :: 0 <= j < |ts| ==> ts[j].Some?
    ensures exists k :: FirstHitAt(ts, now, k)
  {
    var k: int :| 0 <= k <= n && ts[k] == Some(now) && forall j :: 0 <= j < k ==> ts[j] != Some(now) by {
      FirstHitExists(ts, now, n);
    }
    assert FirstHitAt(ts, now, k);
  }

  /** The file written by a popup save has a first hit for the popup's own time. */
  lemma SavedFileHits(s: AlarmScreen, p: PopupClock)
    requires PopupWellFormed(p) && !s.processing
    ensures exists k :: FirstHitAt(Targets(Entries(SaveFromPopup(s, p).stored)), AlarmTimeText(p), k)
  {
    PopupTextNormal(p);
    var t := AlarmTimeText(p);
    var stored := SaveFromPopup(s, p).stored;
    var n := |s.alarms|;
    assert stored[n] == NewAlarm(p);
    var es := Entries(stored);
    var ts := Targets(es);
    forall j | 0 <= j < |ts|
      ensures ts[j].Some?
    {
      TargetsAt(es, j);
    }
    TargetsAt(es, n);
    assert ts[n] == Some(t);
    HitGivesFirstHit(ts, t, n);
  }

  /** An alarm saved from the popup is raised when the clock reaches its
      minute, unless that minute was already served. */
  lemma SavedAlarmFires(s: AlarmScreen, p: PopupClock, last: string)
    requires PopupWellFormed(p) && !s.processing
    requires last != AlarmTimeText(p)
    ensures var h := To24(DigitsValue(p.hour), p.ampm);
      0 <= h < 24 &&
      AlarmCheck(Some(Entries(SaveFromPopup(s, p).stored)), ClockText(h, DigitsValue(p.minute)), last)
        == Check(Some(AlarmTimeText(p)), AlarmTimeText(p))
  {
    PopupTimeIsClockText(p);
    PopupTextNormal(p);
    SavedFileHits(s, p);
    var t := AlarmTimeText(p);
    var es := Entries(SaveFromPopup(s, p).stored);
    var clock := ClockText(To24(DigitsValue(p.hour), p.ampm), DigitsValue(p.minute));
    assert clock == t;
    assert AlarmCheck(Some(es), clock, last) == Scan(es, t, last);
    var r := Scan(es, t, last);
    assert r.fired == Some(t) && r.last == t;
  }

  /** A hit at `n` means a first hit at or before `n`. */
  lemma {:induction false} FirstHitExists(ts: seq<Option<string>>, now: string, n: int)
    requires 0 <= n < |ts| && ts[n] == Some(now)
    ensures exists k :: 0 <= k <= n && ts[k] == Some(now) && forall j :: 0 <= j < k ==> ts[j] != Some(now)
    decreases n
  {
    if exists j :: 0 <= j < n && ts[j] == Some(now) {
      var j :| 0 <= j < n && ts[j] == Some(now);
      FirstHitExists(ts, now, j);
    }
  }
}

=== FILE: bp_packet.dfy ===
/** The Arduino side of the blood-pressure link: the I2C receive handler that
    picks five-byte packets `[48, sys, dia, pulse, x]` out of the byte stream,
    and the main-loop step that prints a finished reading to the serial port as
    `SYS=DIA=BPM`, which the kiosk's serial reader takes apart again. */
module BpPacket {
  import opened Options
  import opened Text
  import Vitals

  /** One byte as read from the bus (an unsigned reading of the `char`). */
  type Byte = b: int | 0 <= b < 256

  /** The header byte, the character `'0'`. */
  const Header: Byte := 48
  /** Bytes from header to completion. */
  const PacketLength := 5
  const DataCapacity := 32
  const RawCapacity := 10

  /** The parser globals: `bpcpy`, `bp_data_cnt`, `bp_data`, the latest
      reading and the `BP_final` flag. */
  datatype Parser = Parser(
    capturing: bool,
    count: int,
    data: seq<int>,
    sys: int,
    dia: int,
    bpm: int,
    final: bool)

  /** What holds between bytes: the count stays inside the packet, and it is
      zero whenever no packet is being captured. Every write to `bp_data` is
      then in bounds. */
  predicate Valid(p: Parser) {
    && |p.data| == DataCapacity
    && 0 <= p.count < PacketLength
    && (!p.capturing ==> p.count == 0)
  }

  /** The globals as the sketch starts: all zero. */
  function Boot(): (p: Parser)
    ensures Valid(p) && !p.capturing && !p.final
  {
    Parser(false, 0, seq(DataCapacity, _ => 0), 0, 0, 0, false)
  }

  /** The parsing part of the loop body of `BP` for one byte `c`. */
  function ParseByte(p: Parser, c: Byte): (r: Parser)
    requires Valid(p)
    ensures Valid(r)
    ensures c == Header ==> r.capturing && r.count == 1 && r.data[0] == Header
    ensures !p.capturing && c != Header ==> r == p
    ensures p.capturing && c != Header && p.count < PacketLength - 1 ==>
      r == p.(count := p.count + 1, data := p.data[p.count := c])
    ensures p.capturing && c != Header && p.count == PacketLength - 1 ==>
      && !r.capturing && r.final
      && r.sys == p.data[1] && r.dia == p.data[2] && r.bpm == p.data[3]
    ensures !r.final ==> !p.final
  {
    var q := if c == Header then p.(capturing := true, count := 0) else p;
    if q.capturing then
      var data := q.data[q.count := c];
      var n := q.count + 1;
      if n >= PacketLength then
        q.(data := data, count := 0, capturing := false,
           sys := data[1], dia := data[2], bpm := data[3], final := true)
      else q.(data := data, count := n)
    else q
  }

  /** The parser after a run of bytes, one `ParseByte` per byte in order. */
  function Feed(p: Parser, bytes: seq<Byte>): (r: Parser)
    requires Valid(p)
    ensures Valid(r)
    decreases |bytes|
  {
    if bytes == [] then p
    else ParseByte(Feed(p, bytes[..|bytes| - 1]), bytes[|bytes| - 1])
  }

  /** Bytes may be split across receive events in any way: a packet begun in
      one event is finished in the next. */
  lemma {:induction false} FeedAppend(p: Parser, a: seq<Byte>, b: seq<Byte>)
    requires Valid(p)
    ensures Feed(p, a + b) == Feed(Feed(p, a), b)
    decreases |b|
  {
    if b == [] {
      assert a + b == a;
    } else {
      var b' := b[..|b| - 1];
      assert (a + b)[..|a + b| - 1] == a + b';
      assert (a + b)[|a + b| - 1] == b[|b| - 1];
      FeedAppend(p, a, b');
    }
  }

  /** A header followed by three values and any non-header fifth byte yields
      exactly those values, from whatever state the parser was in. */
  lemma PacketDelivers(p: Parser, s: Byte, d: Byte, b: Byte, x: Byte)
    requires Valid(p)
    requires s != Header && d != Header && b != Header && x != Header
    ensures var r := Feed(p, [Header, s, d, b, x]);
      r.final && !r.capturing && r.count == 0 && r.sys == s && r.dia == d && r.bpm == b
  {
    var bytes := [Header, s, d, b, x];
    var p1 := Feed(p, bytes[..1]);
    var p2 := Feed(p, bytes[..2]);
    var p3 := Feed(p, bytes[..3]);
    var p4 := Feed(p, bytes[..4]);
    assert bytes[..1][..0] == [];
    assert bytes[..2][..1] == bytes[..1];
    assert bytes[..3][..2] == bytes[..2];
    assert bytes[..4][..3] == bytes[..3];
    assert bytes[..5] == bytes;
    assert p1.capturing && p1.count == 1;
    assert p2.capturing && p2.count == 2 && p2.data[1] == s;
    assert p3.capturing && p3.count == 3 && p3.data[1] == s && p3.data[2] == d;
    assert p4.count == 4 && p4.data[1] == s && p4.data[2] == d && p4.data[3] == b;
  }

  /** A header byte always starts a fresh packet, even one arriving in the
      middle of a packet as a data value. */
  lemma HeaderRestarts(p: Parser, before: seq<Byte>)
    requires Valid(p)
    ensures var r := Feed(p, before + [Header]); r.capturing && r.count == 1
  {
    assert (before + [Header])[..|before|] == before;
  }

  /** While no packet is being captured, non-header bytes change nothing. */
  lemma {:induction false} IdleNoise(p: Parser, noise: seq<Byte>)
    requires Valid(p) && !p.capturing
    requires forall k :: 0 <= k < |noise| ==> noise[k] != Header
    ensures Feed(p, noise) == p
    decreases |noise|
  {
    if noise != [] {
      IdleNoise(p, noise[..|noise| - 1]);
    }
  }

  // ---------------------------------------------------------------------------
  // the receive handler
  // ---------------------------------------------------------------------------

  /** The debugging copy of the first bytes of the latest receive event. */
  datatype RawCapture = RawCapture(raw: seq<int>, rawLen: int, rawReady: bool)

  datatype Device = Device(parser: Parser, capture: RawCapture)

  function Min(a: int, b: int): int {
    if a <= b then a else b
  }

  /** The receive handler `BP`: every byte goes through the parser, and the
      first ten bytes of the event are copied into the raw buffer, whose other
      cells keep what an earlier event left there. */
  method Receive(dev: Device, bytes: seq<Byte>) returns (r: Device)
    requires Valid(dev.parser) && |dev.capture.raw| == RawCapacity
    ensures r.parser == Feed(dev.parser, bytes)
    ensures r.capture.rawReady
    ensures r.capture.rawLen == Min(|bytes|, RawCapacity)
    ensures |r.capture.raw| == RawCapacity
    ensures r.capture.raw[..r.capture.rawLen] == bytes[..r.capture.rawLen]
    ensures r.capture.raw[r.capture.rawLen..] == dev.capture.raw[r.capture.rawLen..]
  {
    var tempLen := 0;
    var raw := dev.capture.raw;
    var p := dev.parser;
    var i := 0;
    while i < |bytes|
      invariant 0 <= i <= |bytes|
      invariant tempLen == Min(i, RawCapacity)
      invariant |raw| == RawCapacity
      invariant raw[..tempLen] == bytes[..tempLen]
      invariant raw[tempLen..] == dev.capture.raw[tempLen..]
      invariant Valid(p)
      invariant p == Feed(dev.parser, bytes[..i])
    {
      var c := bytes[i];
      if tempLen < RawCapacity {
        raw := raw[tempLen := c];
        tempLen := tempLen + 1;
      }
      assert bytes[..i + 1][..i] == bytes[..i];
      p := ParseByte(p, c);
      i := i + 1;
    }
    assert bytes[..i] == bytes;
    r := Device(p, RawCapture(raw, tempLen, true));
  }

  // ---------------------------------------------------------------------------
  // the main-loop step
  // ---------------------------------------------------------------------------

  /** The `%d=%d=%d` text of a reading. */
  function ReadingText(s: int, d: int, b: int): string {
    IntToString(s) + "=" + IntToString(d) + "=" + IntToString(b)
  }

  /** `BP_getData`: a finished reading is printed once, with the line ending
      `Serial.println` adds, and the flag is cleared; otherwise nothing is
      printed. */
  function GetData(p: Parser): (r: (Parser, Option<string>))
    ensures !p.final ==> r == (p, None)
    ensures p.final ==> r.0 == p.(final := false)
    ensures p.final ==> r.1 == Some(ReadingText(p.sys, p.dia, p.bpm) + "\r\n")
  {
    if p.final then (p.(final := false), Some(ReadingText(p.sys, p.dia, p.bpm) + "\r\n"))
    else (p, None)
  }

  /** A reading is printed at most once: the next call prints nothing. */
  lemma PrintedOnce(p: Parser)
    ensures GetData(GetData(p).0).1 == None
  {
  }

  /** The text of an integer has no `=` and begins and ends with a non-space. */
  lemma IntTextShape(i: int)
    ensures '=' !in IntToString(i)
    ensures var t := IntToString(i); !IsSpace(t[0]) && !IsSpace(t[|t| - 1])
  {
    var t := IntToString(i);
    var n := NatToString(if i < 0 then -i else i);
    assert t == n || t == "-" + n;
    assert IsDigit(n[|n| - 1]);
    assert t[|t| - 1] == n[|n| - 1];
  }

  /** The serial round trip: the line `BP_getData` prints for a reading is read
      by the kiosk as the three fields, and each field parses back to its value. */
  lemma SerialRoundTrip(s: int, d: int, b: int)
    ensures var line := ReadingText(s, d, b) + "\r\n";
      && Vitals.ReadSerialLine(line) == Vitals.Reading(IntToString(s), IntToString(d), IntToString(b))
      && ParseInt(IntToString(s)) == Some(s)
      && ParseInt(IntToString(d)) == Some(d)
      && ParseInt(IntToString(b)) == Some(b)
  {
    IntTextShape(s);
    IntTextShape(d);
    IntTextShape(b);
    var parts := [IntToString(s), IntToString(d), IntToString(b)];
    Join3(parts[0], parts[1], parts[2], '=');
    assert Join(parts, '=') == ReadingText(s, d, b);
    JoinUnpadded(parts, '=');
    var t := ReadingText(s, d, b);
    assert t[0] == parts[0][0];
    assert t != "Err" by {
      assert t[0] == '-' || IsDigit(t[0]);
    }
    assert AllSpace("\r\n");
    Vitals.ReadSerialFields(parts[0], parts[1], parts[2], "\r\n");
    ParseFormatted(s);
    ParseFormatted(d);
    ParseFormatted(b);
  }

  /** End to end: a packet on the bus becomes, on the kiosk, three fields that
      parse to the packet's values. */
  lemma PacketReachesKiosk(p: Parser, s: Byte, d: Byte, b: Byte, x: Byte)
    requires Valid(p)
    requires s != Header && d != Header && b != Header && x != Header
    ensures var out := GetData(Feed(p, [Header, s, d, b, x])).1;
      && out.Some?
      && Vitals.ReadSerialLine(out.value) == Vitals.Reading(IntToString(s), IntToString(d), IntToString(b))
  {
    PacketDelivers(p, s, d, b, x);
    SerialRoundTrip(s, d, b);
  }
}

=== FILE: datetime_fields.dfy ===
/** The date-and-time settings screen and the hour/minute/AM-PM picker of the
    add-alarm popup. Each field is shown as text; the arrow buttons read the
    text back with `int(...)`, step it, wrap it into the field's range and
    write it as two digits (the year as plain digits); saving converts the
    twelve-hour display into the `YYYY-MM-DD HH:MM:00` text handed to `date -s`. */
module DateTimeFields {
  import opened Options
  import opened Text

  /** The field names the buttons pass; `Unknown` is any other name, which
      the handler ignores. */
  datatype Field = Hour | Minute | AmPm | Month | Day | Year | Unknown

  /** The six display properties of the settings screen. */
  datatype Display = Display(hour: string, minute: string, ampm: string, month: string, day: string, year: string)

  function FieldText(d: Display, f: Field): string {
    match f
    case Hour => d.hour
    case Minute => d.minute
    case AmPm => d.ampm
    case Month => d.month
    case Day => d.day
    case Year => d.year
    case Unknown => ""
  }

  function SetField(d: Display, f: Field, text: string): (r: Display)
    ensures f != Unknown ==> FieldText(r, f) == text
    ensures forall g :: g != f ==> FieldText(r, g) == FieldText(d, g)
  {
    match f
    case Hour => d.(hour := text)
    case Minute => d.(minute := text)
    case AmPm => d.(ampm := text)
    case Month => d.(month := text)
    case Day => d.(day := text)
    case Year => d.(year := text)
    case Unknown => d
  }

  // ---------------------------------------------------------------------------
  // one counter
  // ---------------------------------------------------------------------------

  /** The two guards of every counter: above the top goes to the bottom, below
      the bottom goes to the top. Unlike a modulus this lands on the far end
      whatever the size of the overshoot. */
  function Wrap(v: int, lo: int, hi: int): (r: int)
    requires lo <= hi
    ensures lo <= r <= hi
    ensures lo <= v <= hi ==> r == v
    ensures v > hi ==> r == lo
    ensures v < lo ==> r == hi
  {
    if v > hi then lo
    else if v < lo then hi
    else v
  }

  /** A two-digit counter field holding a value of its range. */
  predicate Counter(text: string, lo: int, hi: int) {
    |text| == 2 && AllDigits(text) && lo <= DigitsValue(text) <= hi
  }

  /** One press on a counter: `None` when the text is not an integer (the
      handler raises `ValueError`). */
  function StepCounter(text: string, amount: int, lo: int, hi: int): (r: Option<string>)
    requires 0 <= lo <= hi < 100
    ensures r.None? <==> ParseInt(text).None?
    ensures r.Some? ==> Counter(r.value, lo, hi)
    ensures r.Some? ==> ParseInt(r.value) == Some(Wrap(ParseInt(text).value + amount, lo, hi))
  {
    match ParseInt(text)
    case None => None
    case Some(v) =>
      var w := Wrap(v + amount, lo, hi);
      ParsePad2(w);
      Some(Pad2(w))
  }

  /** A two-digit text is exactly the zero-filled form of its value. */
  lemma TwoDigitsCanonical(text: string)
    requires |text| == 2 && AllDigits(text)
    ensures Pad2(DigitsValue(text)) == text
  {
    var a := DigitValue(text[0]);
    var b := DigitValue(text[1]);
    assert text[..1][..0] == [];
    assert DigitsValue(text[..1]) == a;
    assert DigitsValue(text) == a * 10 + b;
    var v := a * 10 + b;
    if a == 0 {
      assert Pad2(v) == ['0', DigitChar(b)];
    } else {
      assert v / 10 == a && v % 10 == b;
      assert NatToString(a) == [text[0]];
      assert Pad2(v) == NatToString(a) + [DigitChar(b)];
    }
  }

  /** A counter in range reads back as its value. */
  lemma CounterParses(text: string, lo: int, hi: int)
    requires 0 <= lo && hi < 100
    requires Counter(text, lo, hi)
    ensures ParseInt(text) == Some(DigitsValue(text))
  {
    TwoDigitsCanonical(text);
    ParsePad2(DigitsValue(text));
  }

  /** An up-press followed by a down-press restores any counter in range,
      including across the wrap. */
  lemma StepUpThenDown(text: string, lo: int, hi: int)
    requires 0 <= lo <= hi < 100
    requires Counter(text, lo, hi)
    ensures var up := StepCounter(text, 1, lo, hi);
      up.Some? && StepCounter(up.value, -1, lo, hi) == Some(text)
  {
    CounterParses(text, lo, hi);
    var v := DigitsValue(text);
    var up := StepCounter(text, 1, lo, hi);
    var w := Wrap(v + 1, lo, hi);
    assert ParseInt(up.value) == Some(w);
    var down := StepCounter(up.value, -1, lo, hi);
    assert Wrap(w - 1, lo, hi) == v;
    assert ParseInt(down.value) == Some(v);
    CounterParses(down.value, lo, hi);
    TwoDigitsCanonical(down.value);
    TwoDigitsCanonical(text);
  }

  /** The AM/PM button: `AM` becomes `PM` and anything else becomes `AM`. */
  function ToggleAmPm(s: string): (r: string)
    ensures s == "AM" <==> r == "PM"
    ensures r == "AM" || r == "PM"
  {
    if s == "AM" then "PM" else "AM"
  }

  /** Pressing the AM/PM button twice restores a proper meridiem. */
  lemma ToggleTwice(s: string)
    requires s == "AM" || s == "PM"
    ensures ToggleAmPm(ToggleAmPm(s)) == s
  {
  }

  // ---------------------------------------------------------------------------
  // the settings screen
  // ---------------------------------------------------------------------------

  /** The fields shown as wrapped two-digit counters. */
  predicate IsCounter(f: Field) {
    f.Hour? || f.Minute? || f.Month? || f.Day?
  }

  /** The range of each counter field. */
  function Bounds(f: Field): (b: (int, int))
    requires IsCounter(f)
    ensures 0 <= b.0 <= b.1 < 100
  {
    match f
    case Hour => (1, 12)
    case Minute => (0, 59)
    case Month => (1, 12)
    case Day => (1, 31)
  }

  /** `DateTimeScreen.adjust_time`: one field changes, by its own rule; `None`
      when the field's text does not parse as an integer. */
  function AdjustTime(d: Display, f: Field, amount: int): (r: Option<Display>)
    ensures r.None? <==> (IsCounter(f) || f == Year) && ParseInt(FieldText(d, f)).None?
    ensures r.Some? ==> forall g :: g != f ==> FieldText(r.value, g) == FieldText(d, g)
    ensures r.Some? && IsCounter(f) ==>
      Counter(FieldText(r.value, f), Bounds(f).0, Bounds(f).1)
    ensures r.Some? && IsCounter(f) ==>
      ParseInt(FieldText(r.value, f)) == Some(Wrap(ParseInt(FieldText(d, f)).value + amount, Bounds(f).0, Bounds(f).1))
    ensures r.Some? && f == Year ==> r.value.year == IntToString(ParseInt(d.year).value + amount)
    ensures f == AmPm ==> r == Some(d.(ampm := ToggleAmPm(d.ampm)))
    ensures f == Unknown ==> r == Some(d)
  {
    if f == Unknown then Some(d)
    else if f == AmPm then Some(SetField(d, AmPm, ToggleAmPm(d.ampm)))
    else if f == Year then StepYear(d, amount)
    else StepField(d, f, amount)
  }

  /** A press on the year: plain `str` of the stepped value, without a range. */
  function StepYear(d: Display, amount: int): (r: Option<Display>)
    ensures r.None? <==> ParseInt(d.year).None?
    ensures r.Some? ==> forall g :: g != Year ==> FieldText(r.value, g) == FieldText(d, g)
    ensures r.Some? ==> r.value.year == IntToString(ParseInt(d.year).value + amount)
  {
    match ParseInt(d.year)
    case None => None
    case Some(v) => Some(SetField(d, Year, IntToString(v + amount)))
  }

  /** A press on one of the counter fields. */
  function StepField(d: Display, f: Field, amount: int): (r: Option<Display>)
    requires IsCounter(f)
    ensures r.None? <==> ParseInt(FieldText(d, f)).None?
    ensures r.Some? ==> Counter(FieldText(r.value, f), Bounds(f).0, Bounds(f).1)
    ensures r.Some? ==>
      ParseInt(FieldText(r.value, f)) == Some(Wrap(ParseInt(FieldText(d, f)).value + amount, Bounds(f).0, Bounds(f).1))
    ensures r.Some? ==> forall g :: g != f ==> FieldText(r.value, g) == FieldText(d, g)
  {
    var b := Bounds(f);
    var t := StepCounter(FieldText(d, f), amount, b.0, b.1);
    if t.None? then None else Some(SetField(d, f, t.value))
  }

  /** A display as the screen shows it: every counter two digits in range, a
      proper meridiem, and a year that is an integer. */
  predicate WellFormed(d: Display) {
    && Counter(d.hour, 1, 12)
    && Counter(d.minute, 0, 59)
    && (d.ampm == "AM" || d.ampm == "PM")
    && Counter(d.month, 1, 12)
    && Counter(d.day, 1, 31)
    && ParseInt(d.year).Some?
  }

  /** The frame of a one-field change, field by field. */
  lemma Unchanged(d: Display, r: Display, f: Field)
    requires forall g :: g != f ==> FieldText(r, g) == FieldText(d, g)
    ensures f != Hour ==> r.hour == d.hour
    ensures f != Minute ==> r.minute == d.minute
    ensures f != AmPm ==> r.ampm == d.ampm
    ensures f != Month ==> r.month == d.month
    ensures f != Day ==> r.day == d.day
    ensures f != Year ==> r.year == d.year
  {
    assert FieldText(r, Hour) == r.hour && FieldText(r, Minute) == r.minute;
    assert FieldText(r, AmPm) == r.ampm && FieldText(r, Month) == r.month;
    assert FieldText(r, Day) == r.day && FieldText(r, Year) == r.year;
  }

  /** Adjusting a well-formed display never fails and keeps it well-formed. */
  lemma AdjustKeepsWellFormed(d: Display, f: Field, amount: int)
    requires WellFormed(d)
    ensures AdjustTime(d, f, amount).Some? && WellFormed(AdjustTime(d, f, amount).value)
  {
    if IsCounter(f) {
      CounterKeepsWellFormed(d, f, amount);
    } else {
      var v := ParseInt(d.year).value;
      var a := AdjustTime(d, f, amount);
      assert a.Some?;
      Unchanged(d, a.value, f);
      if f == Year {
        ParseFormatted(v + amount);
        assert a.value.year == IntToString(v + amount);
      }
    }
  }

  lemma CounterKeepsWellFormed(d: Display, f: Field, amount: int)
    requires WellFormed(d) && IsCounter(f)
    ensures AdjustTime(d, f, amount).Some? && WellFormed(AdjustTime(d, f, amount).value)
  {
    var a := AdjustTime(d, f, amount);
    match f {
      case Hour =>
        CounterParses(d.hour, 1, 12);
        Unchanged(d, a.value, f);
        assert FieldText(a.value, Hour) == a.value.hour;
      case Minute =>
        CounterParses(d.minute, 0, 59);
        Unchanged(d, a.value, f);
        assert FieldText(a.value, Minute) == a.value.minute;
      case Month =>
        CounterParses(d.month, 1, 12);
        Unchanged(d, a.value, f);
        assert FieldText(a.value, Month) == a.value.month;
      case Day =>
        CounterParses(d.day, 1, 31);
        Unchanged(d, a.value, f);
        assert FieldText(a.value, Day) == a.value.day;
    }
  }

  /** The clock the screen reads when it is entered: a 24-hour time and a date. */
  datatype Clock = Clock(year: int, month: int, day: int, hour24: int, minute: int)

  predicate ValidClock(c: Clock) {
    1 <= c.year && 1 <= c.month <= 12 && 1 <= c.day <= 31 && 0 <= c.hour24 < 24 && 0 <= c.minute < 60
  }

  /** `strftime("%I")` and `strftime("%p")` of a 24-hour hour. */
  function From24(h24: int): (r: (int, string))
    requires 0 <= h24 < 24
    ensures 1 <= r.0 <= 12 && (r.1 == "AM" || r.1 == "PM")
  {
    (if h24 % 12 == 0 then 12 else h24 % 12, if h24 < 12 then "AM" else "PM")
  }

  /** The hour conversion of `save_datetime`: 12 PM stays 12, 12 AM becomes 0,
      other PM hours gain twelve. */
  function To24(hour: int, ampm: string): int {
    if ampm == "PM" && hour != 12 then hour + 12
    else if ampm == "AM" && hour == 12 then 0
    else hour
  }

  /** Reading the clock's twelve-hour form and converting back gives the hour. */
  lemma To24OfFrom24(h24: int)
    requires 0 <= h24 < 24
    ensures var (h, m) := From24(h24); To24(h, m) == h24
  {
  }

  /** Every twelve-hour display hour names a distinct 24-hour hour. */
  lemma From24OfTo24(hour: int, ampm: string)
    requires 1 <= hour <= 12 && (ampm == "AM" || ampm == "PM")
    ensures 0 <= To24(hour, ampm) < 24
    ensures From24(To24(hour, ampm)) == (hour, ampm)
  {
  }

  /** `DateTimeScreen.on_enter`: the display copies the clock. */
  function OnEnter(c: Clock): (d: Display)
    requires ValidClock(c)
    ensures WellFormed(d)
  {
    var (h, m) := From24(c.hour24);
    ParsePad2(h);
    ParsePad2(c.minute);
    ParsePad2(c.month);
    ParsePad2(c.day);
    ParseFormatted(c.year);
    Display(Pad2(h), Pad2(c.minute), m, Pad2(c.month), Pad2(c.day), IntToString(c.year))
  }

  /** The `YYYY-MM-DD HH:MM:00` text `save_datetime` builds; `None` when the
      hour does not parse. */
  function SetTimeText(d: Display): (r: Option<string>)
    ensures r.None? <==> ParseInt(d.hour).None?
    ensures r.Some? ==> var h := To24(ParseInt(d.hour).value, d.ampm);
      r.value == d.year + "-" + d.month + "-" + d.day + " " + Pad2(h) + ":" + d.minute + ":00"
  {
    match ParseInt(d.hour)
    case None => None
    case Some(h) =>
      Some(d.year + "-" + d.month + "-" + d.day + " " + Pad2(To24(h, d.ampm)) + ":" + d.minute + ":00")
  }

  /** The time written for a well-formed display carries a two-digit hour of
      the day that reads back as the displayed hour and meridiem. */
  lemma SetTimeHour(d: Display)
    requires WellFormed(d)
    ensures SetTimeText(d).Some?
    ensures var h := To24(DigitsValue(d.hour), d.ampm);
      0 <= h < 24 && |Pad2(h)| == 2 && From24(h) == (DigitsValue(d.hour), d.ampm)
  {
    CounterParses(d.hour, 1, 12);
    From24OfTo24(DigitsValue(d.hour), d.ampm);
  }

  /** Entering the screen and saving without a change writes the clock back as
      it was read. */
  lemma SaveUnchanged(c: Clock)
    requires ValidClock(c)
    ensures SetTimeText(OnEnter(c)) == Some(IntToString(c.year) + "-" + Pad2(c.month) + "-" + Pad2(c.day)
      + " " + Pad2(c.hour24) + ":" + Pad2(c.minute) + ":00")
  {
    var (h, m) := From24(c.hour24);
    ParsePad2(h);
    To24OfFrom24(c.hour24);
  }

  // ---------------------------------------------------------------------------
  // the add-alarm popup
  // ---------------------------------------------------------------------------

  /** The three labels of the add-alarm popup. */
  datatype PopupClock = PopupClock(hour: string, minute: string, ampm: string)

  /** `AddAlarmPopup.adjust_time`: the same rules for hour, minute and AM/PM;
      other field names do nothing. */
  function AdjustPopup(p: PopupClock, f: Field, amount: int): (r: Option<PopupClock>)
    ensures !(f.Hour? || f.Minute? || f.AmPm?) ==> r == Some(p)
    ensures var d := AsDisplay(p); var a := AdjustTime(d, f, amount);
      (f.Hour? || f.Minute? || f.AmPm?) ==> (r.Some? <==> a.Some?) && (r.Some? ==> AsDisplay(r.value) == a.value)
  {
    match f
    case Hour =>
      (match StepCounter(p.hour, amount, 1, 12)
       case None => None
       case Some(t) => Some(p.(hour := t)))
    case Minute =>
      (match StepCounter(p.minute, amount, 0, 59)
       case None => None
       case Some(t) => Some(p.(minute := t)))
    case AmPm => Some(p.(ampm := ToggleAmPm(p.ampm)))
    case _ => Some(p)
  }

  /** The popup's labels as a settings display with a fixed date, to compare
      the two handlers. */
  function AsDisplay(p: PopupClock): Display {
    Display(p.hour, p.minute, p.ampm, "01", "01", "2025")
  }

  predicate PopupWellFormed(p: PopupClock) {
    Counter(p.hour, 1, 12) && Counter(p.minute, 0, 59) && (p.ampm == "AM" || p.ampm == "PM")
  }

  /** The popup's labels stay well-formed under every press. */
  lemma PopupKeepsWellFormed(p: PopupClock, f: Field, amount: int)
    requires PopupWellFormed(p)
    ensures AdjustPopup(p, f, amount).Some? && PopupWellFormed(AdjustPopup(p, f, amount).value)
  {
    CounterParses(p.hour, 1, 12);
    CounterParses(p.minute, 0, 59);
  }

  /** The alarm time text the popup's save builds: `HH:MM AM`. */
  function AlarmTimeText(p: PopupClock): string {
    p.hour + ":" + p.minute + " " + p.ampm
  }
}

=== FILE: history.dfy ===
/** The patient-reading history: the in-memory list (newest first) and the log
    file (oldest first, one entry per line). Saving a reading puts it at the
    front of the list and appends it to the file; deleting a record removes its
    first occurrence and rewrites the file; clearing empties both; and at
    start-up the list is rebuilt from the file's non-blank lines, reversed. */
module History {
  import opened Options
  import opened Text

  /** The list and the file's lines. Each operation that writes takes how its
      write ended. */
  datatype Log = Log(history: seq<string>, file: seq<string>)

  /** How a rewrite through `open(LOG_FILE, "w")` ended: it went through; the
      `open` itself raised, so the file was never touched; or a write raised
      after the `open` had already truncated the file, once `lines` lines were
      written. */
  datatype WriteOutcome = Rewritten | OpenFailed | WriteFailed(lines: nat)

  function Min(a: int, b: int): int {
    if a <= b then a else b
  }

  /** The file's lines after rewriting it with `lines`. */
  function Rewrite(file: seq<string>, lines: seq<string>, w: WriteOutcome): (r: seq<string>)
    ensures w.Rewritten? ==> r == lines
    ensures w.OpenFailed? ==> r == file
    ensures w.WriteFailed? ==> r <= lines && |r| == Min(w.lines, |lines|)
  {
    match w
    case Rewritten => lines
    case OpenFailed => file
    case WriteFailed(n) => lines[..Min(n, |lines|)]
  }

  function Reverse(s: seq<string>): (r: seq<string>)
    ensures |r| == |s|
    ensures forall k :: 0 <= k < |s| ==> r[k] == s[|s| - 1 - k]
  {
    if s == [] then [] else Reverse(s[1..]) + [s[0]]
  }

  lemma ReverseReverse(s: seq<string>)
    ensures Reverse(Reverse(s)) == s
  {
  }

  /** The file holds the list in the opposite order. */
  predicate Mirrors(l: Log) {
    l.file == Reverse(l.history)
  }

  /** The fixed texts between the timestamp and the values. */
  const PressureLabel := "]       Blood Pressure: "
  const RateLabel := "mmHg       Heart Rate:  "

  /** The text `save_reading` builds for one reading. */
  function ReadingEntry(timestamp: string, sys: string, dia: string, bpm: string): string {
    "[" + timestamp + PressureLabel + sys + "/" + dia + RateLabel + bpm + "bpm"
  }

  /** `save_reading`: nothing is saved while the systolic label shows `Error`
      or its placeholder; otherwise the entry goes to the front of the list and
      to the end of the file. */
  function SaveReading(l: Log, shownSys: string, entry: string, written: bool): (r: Log)
    ensures shownSys == "Error" || shownSys == "-SYSTOLIC-" ==> r == l
    ensures !(shownSys == "Error" || shownSys == "-SYSTOLIC-") ==>
      r.history == [entry] + l.history && r.file == (if written then l.file + [entry] else l.file)
  {
    if shownSys == "Error" || shownSys == "-SYSTOLIC-" then l
    else Log([entry] + l.history, if written then l.file + [entry] else l.file)
  }

  /** The position of the first entry equal to `x`. */
  function FirstIndex(s: seq<string>, x: string): (i: nat)
    requires x in s
    ensures i < |s| && s[i] == x && x !in s[..i]
  {
    if s[0] == x then 0
    else
      var j := FirstIndex(s[1..], x);
      assert s[..j + 1] == [s[0]] + s[1..][..j];
      j + 1
  }

  /** Python's `list.remove(x)` when `x` is present, and the list unchanged
      when it is not (the caller checks `in` first). */
  function RemoveFirst(s: seq<string>, x: string): (r: seq<string>)
    ensures x !in s ==> r == s
    ensures x in s ==> exists i :: 0 <= i < |s| && s[i] == x && x !in s[..i] && r == s[..i] + s[i + 1..]
  {
    if x in s then
      var i := FirstIndex(s, x);
      s[..i] + s[i + 1..]
    else s
  }

  /** `delete_record`: the first equal entry leaves the list, and the file is
      rewritten from the list, present or not. Once the file is open for
      writing its old contents are gone: a write that fails leaves only the
      oldest entries of the new list. */
  function DeleteRecord(l: Log, text: string, w: WriteOutcome): (r: Log)
    ensures r.history == RemoveFirst(l.history, text)
    ensures w.Rewritten? ==> Mirrors(r)
    ensures w.OpenFailed? ==> r.file == l.file
    ensures w.WriteFailed? ==> r.file <= Reverse(r.history)
  {
    var h := RemoveFirst(l.history, text);
    Log(h, Rewrite(l.file, Reverse(h), w))
  }

  /** `execute_clear_history`: the list is emptied and the file truncated;
      only an `open` that raises keeps the old file. */
  function ClearHistory(l: Log, w: WriteOutcome): (r: Log)
    ensures r.history == []
    ensures r.file == (if w.OpenFailed? then l.file else [])
  {
    Log([], Rewrite(l.file, [], w))
  }

  /** Saving keeps the file a mirror of the list when the append goes through. */
  lemma SaveKeepsMirror(l: Log, shownSys: string, entry: string)
    requires Mirrors(l)
    ensures Mirrors(SaveReading(l, shownSys, entry, true))
  {
    assert Reverse([entry] + l.history) == Reverse(l.history) + [entry] by {
      assert ([entry] + l.history)[1..] == l.history;
    }
  }

  /** Deleting a present record takes out exactly one copy of it. */
  lemma DeleteRemovesOne(l: Log, text: string, w: WriteOutcome)
    requires text in l.history
    ensures multiset(DeleteRecord(l, text, w).history) + multiset{text} == multiset(l.history)
  {
    var h := l.history;
    var i := FirstIndex(h, text);
    assert h == h[..i] + [h[i]] + h[i + 1..];
  }

  /** Clearing keeps the mirror when the truncation goes through. */
  lemma ClearKeepsMirror(l: Log)
    ensures Mirrors(ClearHistory(l, Rewritten))
  {
  }

  // ---------------------------------------------------------------------------
  // start-up
  // ---------------------------------------------------------------------------

  /** `[line.strip() for line in lines if line.strip()]`. */
  function NonBlank(lines: seq<string>): (r: seq<string>)
    ensures |r| <= |lines|
    ensures forall k :: 0 <= k < |r| ==> r[k] != [] && Unpadded(r[k])
  {
    if lines == [] then []
    else if Strip(lines[0]) == [] then NonBlank(lines[1..])
    else [Strip(lines[0])] + NonBlank(lines[1..])
  }

  /** The list `build` makes: the file's non-blank lines, stripped and newest
      first; a missing or unreadable file gives an empty list. */
  function LoadHistory(file: Option<seq<string>>): (r: seq<string>)
    ensures file.None? ==> r == []
    ensures file.Some? ==> r == Reverse(NonBlank(file.value))
  {
    match file
    case None => []
    case Some(lines) => Reverse(NonBlank(lines))
  }

  predicate OneLine(s: string) {
    '\n' !in s && '\r' !in s
  }

  /** An entry that survives the log file unchanged: not blank, no white space
      at either end, and on one line. */
  predicate CleanEntry(e: string) {
    e != [] && Unpadded(e) && OneLine(e)
  }

  /** Clean lines pass through the blank-line filter untouched. */
  lemma {:induction false} NonBlankClean(lines: seq<string>)
    requires forall k :: 0 <= k < |lines| ==> CleanEntry(lines[k])
    ensures NonBlank(lines) == lines
    decreases |lines|
  {
    if lines != [] {
      StripUnpadded(lines[0]);
      NonBlankClean(lines[1..]);
    }
  }

  /** A restart reads back the list the file mirrors, when every entry is clean. */
  lemma RestartRestores(l: Log)
    requires Mirrors(l)
    requires forall k :: 0 <= k < |l.history| ==> CleanEntry(l.history[k])
    ensures LoadHistory(Some(l.file)) == l.history
  {
    NonBlankClean(l.file);
    ReverseReverse(l.history);
  }

  lemma OneLineConcat(a: string, b: string)
    requires OneLine(a) && OneLine(b)
    ensures OneLine(a + b)
  {
    assert forall c :: c in a + b <==> c in a || c in b;
  }

  lemma PressureLabelOneLine()
    ensures OneLine(PressureLabel)
  {
  }

  lemma RateLabelOneLine()
    ensures OneLine(RateLabel)
  {
  }

  /** Every reading entry is clean when its parts are on one line. */
  lemma ReadingEntryClean(timestamp: string, sys: string, dia: string, bpm: string)
    requires OneLine(timestamp) && OneLine(sys) && OneLine(dia) && OneLine(bpm)
    ensures CleanEntry(ReadingEntry(timestamp, sys, dia, bpm))
  {
    PressureLabelOneLine();
    RateLabelOneLine();
    var e1 := "[" + timestamp;
    OneLineConcat("[", timestamp);
    var e2 := e1 + PressureLabel;
    OneLineConcat(e1, PressureLabel);
    var e3 := e2 + sys;
    OneLineConcat(e2, sys);
    var e4 := e3 + "/";
    OneLineConcat(e3, "/");
    var e5 := e4 + dia;
    OneLineConcat(e4, dia);
    var e6 := e5 + RateLabel;
    OneLineConcat(e5, RateLabel);
    var e7 := e6 + bpm;
    OneLineConcat(e6, bpm);
    var e := e7 + "bpm";
    OneLineConcat(e7, "bpm");
    assert e == ReadingEntry(timestamp, sys, dia, bpm);
    assert e == "[" + (e[1..]);
    assert e[|e| - 1] == 'm';
  }

  /** A saved reading is still there, newest first, after a restart. */
  lemma SavedReadingSurvivesRestart(l: Log, shownSys: string, entry: string)
    requires Mirrors(l)
    requires forall k :: 0 <= k < |l.history| ==> CleanEntry(l.history[k])
    requires CleanEntry(entry)
    requires shownSys != "Error" && shownSys != "-SYSTOLIC-"
    ensures LoadHistory(Some(SaveReading(l, shownSys, entry, true).file)) == [entry] + l.history
  {
    var r := SaveReading(l, shownSys, entry, true);
    SaveKeepsMirror(l, shownSys, entry);
    assert forall k :: 0 <= k < |r.history| ==> CleanEntry(r.history[k]) by {
      forall k | 0 <= k < |r.history|
        ensures CleanEntry(r.history[k])
      {
        if k > 0 {
          assert r.history[k] == l.history[k - 1];
        }
      }
    }
    RestartRestores(r);
  }

  /** A delete whose rewrite fails after `k` lines leaves a file that a restart
      reads as only the `k` oldest remaining entries: the newer ones are lost. */
  lemma FailedRewriteKeepsOldest(l: Log, text: string, k: nat)
    requires forall j :: 0 <= j < |l.history| ==> CleanEntry(l.history[j])
    ensures var r := DeleteRecord(l, text, WriteFailed(k));
      var m := Min(k, |r.history|);
      LoadHistory(Some(r.file)) == r.history[|r.history| - m..]
  {
    var h := RemoveFirst(l.history, text);
    RemoveFirstClean(l.history, text);
    LoadPrefix(h, Min(k, |h|));
  }

  /** A file holding the first `m` lines of a clean list's mirror loads as the
      list's last `m` entries. */
  lemma LoadPrefix(h: seq<string>, m: nat)
    requires forall j :: 0 <= j < |h| ==> CleanEntry(h[j])
    requires m <= |h|
    ensures LoadHistory(Some(Reverse(h)[..m])) == h[|h| - m..]
  {
    var f := Reverse(h)[..m];
    forall j | 0 <= j < |f| ensures CleanEntry(f[j]) {
      assert f[j] == h[|h| - 1 - j];
    }
    NonBlankClean(f);
    ReversePrefix(h, m);
  }

  /** Removing an entry from a list of clean entries leaves clean entries. */
  lemma RemoveFirstClean(s: seq<string>, x: string)
    requires forall j :: 0 <= j < |s| ==> CleanEntry(s[j])
    ensures var h := RemoveFirst(s, x); forall j :: 0 <= j < |h| ==> CleanEntry(h[j])
  {
    var h := RemoveFirst(s, x);
    forall j | 0 <= j < |h| ensures CleanEntry(h[j]) {
      RemoveFirstSubset(s, x, h[j]);
    }
  }

  /** Reading back the first `m` lines of a reversed list gives its last `m` entries. */
  lemma {:induction false} ReversePrefix(h: seq<string>, m: nat)
    requires m <= |h|
    ensures Reverse(Reverse(h)[..m]) == h[|h| - m..]
    decreases |h|
  {
    if m == |h| {
      assert Reverse(h)[..m] == Reverse(h);
      ReverseReverse(h);
    } else {
      var t := h[1..];
      assert Reverse(h) == Reverse(t) + [h[0]];
      assert Reverse(h)[..m] == Reverse(t)[..m];
      ReversePrefix(t, m);
      assert t[|t| - m..] == h[|h| - m..];
    }
  }

  /** Every entry left by a removal was in the list before. */
  lemma RemoveFirstSubset(s: seq<string>, x: string, y: string)
    requires y in RemoveFirst(s, x)
    ensures y in s
  {
    if x in s {
      var i := FirstIndex(s, x);
      assert RemoveFirst(s, x) == s[..i] + s[i + 1..];
      assert multiset(s) == multiset(s[..i]) + multiset{s[i]} + multiset(s[i + 1..]) by {
        assert s == s[..i] + [s[i]] + s[i + 1..];
      }
    }
  }
}

=== FILE: options.dfy ===
/** The conventional optional-value datatype, used wherever the source uses `None`
    or an exception that the caller catches. */
module Options {

  datatype Option<+T> = None | Some(value: T) {

    /** The wrapped value, or `default` when there is none. */
    function GetOr(default: T): T {
      match this
      case Some(v) => v
      case None => default
    }
  }
}

=== FILE: text.dfy ===
/** The handful of Python `str` operations the kiosk code relies on, written out
    with Python's exact semantics where they matter: `isspace`/`strip`,
    `split(sep)` with a one-character separator, `split(sep, 1)`, substring
    tests, `int(...)` on decimal text, `f"{n:02d}"`/`str(n)` formatting,
    code-point string ordering, and `upper()`. */
module Text {
  import opened Options

  // ---------------------------------------------------------------------------
  // Characters
  // ---------------------------------------------------------------------------

  /** Python's `str.isspace()` on one character: the ASCII controls 9..13 and
      28..31, the space, and the Unicode space separators and line/paragraph
      separators. */
  predicate IsSpace(c: char) {
    var n := c as int;
    || (9 <= n <= 13)
    || (28 <= n <= 32)
    || n == 0x85 || n == 0xA0 || n == 0x1680
    || (0x2000 <= n <= 0x200A)
    || n == 0x2028 || n == 0x2029 || n == 0x202F || n == 0x205F || n == 0x3000
  }

  predicate IsDigit(c: char) {
    '0' <= c <= '9'
  }

  predicate AllDigits(s: string) {
    forall i :: 0 <= i < |s| ==> IsDigit(s[i])
  }

  // ---------------------------------------------------------------------------
  // strip()
  // ---------------------------------------------------------------------------

  /** `s.rstrip()`: the longest prefix of `s` that does not end with white space. */
  function TrimRight(s: string): (r: string)
    ensures |r| <= |s| && r == s[..|r|]
    ensures r == [] || !IsSpace(r[|r| - 1])
    ensures forall i :: |r| <= i < |s| ==> IsSpace(s[i])
  {
    if |s| > 0 && IsSpace(s[|s| - 1]) then TrimRight(s[..|s| - 1]) else s
  }

  /** Neither end of `s` is white space (the empty string qualifies). */
  predicate Unpadded(s: string) {
    s == [] || (!IsSpace(s[0]) && !IsSpace(s[|s| - 1]))
  }

  predicate AllSpace(s: string) {
    forall i :: 0 <= i < |s| ==> IsSpace(s[i])
  }

  /** `s.strip()`: leading white space is skipped, then `rstrip()` removes the
      trailing white space. */
  function Strip(s: string): (r: string)
    ensures Unpadded(r)
    ensures |r| <= |s|
  {
    if |s| > 0 && IsSpace(s[0]) then Strip(s[1..]) else TrimRight(s)
  }

  /** Stripping a string whose ends are not white space changes nothing;
      in particular `strip()` is idempotent. */
  lemma StripUnpadded(s: string)
    requires Unpadded(s)
    ensures Strip(s) == s
  {
  }

  lemma {:induction false} TrimRightPadding(x: string, pad: string)
    requires x == [] || !IsSpace(x[|x| - 1])
    requires AllSpace(pad)
    ensures TrimRight(x + pad) == x
    decreases |pad|
  {
    if |pad| == 0 {
      assert x + pad == x;
    } else {
      var shorter := pad[..|pad| - 1];
      assert (x + pad)[..|x + pad| - 1] == x + shorter;
      TrimRightPadding(x, shorter);
    }
  }

  lemma {:induction false} StripAllSpace(pad: string)
    requires AllSpace(pad)
    ensures Strip(pad) == []
    decreases |pad|
  {
    if |pad| > 0 {
      StripAllSpace(pad[1..]);
    }
  }

  /** White space appended to an unpadded string (a line terminator, say) is
      exactly what `strip()` removes. */
  lemma StripTrailingPadding(x: string, pad: string)
    requires Unpadded(x)
    requires AllSpace(pad)
    ensures Strip(x + pad) == x
  {
    if x == [] {
      assert x + pad == pad;
      StripAllSpace(pad);
    } else {
      assert (x + pad)[0] == x[0];
      TrimRightPadding(x, pad);
    }
  }

  // ---------------------------------------------------------------------------
  // split / join
  // ---------------------------------------------------------------------------

  /** Position of the first `c` in `s`. */
  function IndexOf(s: string, c: char): (i: nat)
    requires c in s
    ensures i < |s| && s[i] == c && c !in s[..i]
  {
    if s[0] == c then 0
    else
      var j := IndexOf(s[1..], c);
      assert s[..j + 1] == [s[0]] + s[1..][..j];
      j + 1
  }

  lemma {:induction false} IndexOfAfter(p: string, c: char, q: string)
    requires c !in p
    ensures c in p + [c] + q && IndexOf(p + [c] + q, c) == |p|
  {
    var s := p + [c] + q;
    assert s[|p|] == c;
    assert s[..|p|] == p;
  }

  /** Python's `s.split(sep)` for a one-character separator: the maximal
      separator-free pieces, one more than there are separators. */
  function SplitOn(s: string, sep: char): (parts: seq<string>)
    ensures |parts| >= 1
    ensures forall k :: 0 <= k < |parts| ==> sep !in parts[k]
    decreases |s|
  {
    if sep !in s then [s]
    else
      var i := IndexOf(s, sep);
      [s[..i]] + SplitOn(s[i + 1..], sep)
  }

  /** Python's `sep.join(parts)`. */
  function Join(parts: seq<string>, sep: char): string
  {
    if |parts| == 0 then []
    else if |parts| == 1 then parts[0]
    else parts[0] + [sep] + Join(parts[1..], sep)
  }

  /** Joining the pieces of a split gives back the original text. */
  lemma {:induction false} JoinSplit(s: string, sep: char)
    ensures Join(SplitOn(s, sep), sep) == s
    decreases |s|
  {
    if sep in s {
      var i := IndexOf(s, sep);
      var rest := SplitOn(s[i + 1..], sep);
      JoinSplit(s[i + 1..], sep);
      var parts := [s[..i]] + rest;
      assert SplitOn(s, sep) == parts;
      assert parts[0] == s[..i] && parts[1..] == rest;
      assert Join(parts, sep) == s[..i] + [sep] + Join(rest, sep);
      assert s == s[..i] + [sep] + s[i + 1..];
    }
  }

  /** Splitting separator-free pieces joined by the separator gives the pieces back. */
  lemma {:induction false} SplitJoin(parts: seq<string>, sep: char)
    requires |parts| >= 1
    requires forall k :: 0 <= k < |parts| ==> sep !in parts[k]
    ensures SplitOn(Join(parts, sep), sep) == parts
    decreases |parts|
  {
    if |parts| > 1 {
      var head := parts[0];
      var rest := Join(parts[1..], sep);
      var s := head + [sep] + rest;
      assert Join(parts, sep) == s;
      IndexOfAfter(head, sep, rest);
      var i := IndexOf(s, sep);
      assert SplitOn(s, sep) == [s[..i]] + SplitOn(s[i + 1..], sep);
      assert s[..i] == head;
      assert s[i + 1..] == rest;
      SplitJoin(parts[1..], sep);
      assert parts == [head] + parts[1..];
    }
  }

  /** Three pieces joined: the separator between consecutive pieces. */
  lemma Join3(a: string, b: string, c: string, sep: char)
    ensures Join([a, b, c], sep) == a + [sep] + b + [sep] + c
  {
    assert [a, b, c][1..] == [b, c];
    assert [b, c][1..] == [c];
    assert Join([c], sep) == c;
    assert Join([b, c], sep) == b + [sep] + c;
    assert Join([a, b, c], sep) == a + [sep] + (b + [sep] + c);
  }

  /** The last character of a join is the last character of the last piece. */
  lemma {:induction false} JoinLast(parts: seq<string>, sep: char)
    requires |parts| >= 1 && parts[|parts| - 1] != []
    ensures var j := Join(parts, sep); var l := parts[|parts| - 1]; j != [] && j[|j| - 1] == l[|l| - 1]
    decreases |parts|
  {
    if |parts| > 1 {
      JoinLast(parts[1..], sep);
    }
  }

  /** Pieces whose outer ends are not white space join into unpadded text. */
  lemma JoinUnpadded(parts: seq<string>, sep: char)
    requires |parts| >= 1
    requires parts[0] != [] && !IsSpace(parts[0][0])
    requires var l := parts[|parts| - 1]; l != [] && !IsSpace(l[|l| - 1])
    ensures Unpadded(Join(parts, sep))
  {
    JoinLast(parts, sep);
  }

  /** Python's `s.split(sep, 1)` when `sep` occurs: the text before and after
      the first separator. */
  function SplitFirst(s: string, sep: char): (r: (string, string))
    requires sep in s
    ensures sep !in r.0
    ensures s == r.0 + [sep] + r.1
  {
    var i := IndexOf(s, sep);
    assert s == s[..i] + [sep] + s[i + 1..];
    (s[..i], s[i + 1..])
  }

  // ---------------------------------------------------------------------------
  // substring tests
  // ---------------------------------------------------------------------------

  predicate StartsWith(s: string, p: string) {
    |p| <= |s| && s[..|p|] == p
  }

  /** Python's `p in s` for strings. */
  predicate Contains(s: string, p: string)
    decreases |s|
  {
    StartsWith(s, p) || (|s| > 0 && Contains(s[1..], p))
  }

  /** A string is found in any text that has it as a slice. */
  lemma {:induction false} ContainsSlice(s: string, p: string, k: nat)
    requires k + |p| <= |s| && s[k..k + |p|] == p
    ensures Contains(s, p)
    decreases k
  {
    if k > 0 {
      assert s[1..][k - 1..k - 1 + |p|] == p;
      ContainsSlice(s[1..], p, k - 1);
    }
  }

  /** `Contains` finds nothing that is not a slice of the text. */
  lemma {:induction false} ContainsHasSlice(s: string, p: string) returns (k: nat)
    requires Contains(s, p)
    ensures k + |p| <= |s| && s[k..k + |p|] == p
    decreases |s|
  {
    if StartsWith(s, p) {
      k := 0;
    } else {
      var j := ContainsHasSlice(s[1..], p);
      assert s[1..][j..j + |p|] == s[j + 1..j + 1 + |p|];
      k := j + 1;
    }
  }

  // ---------------------------------------------------------------------------
  // decimal numbers
  // ---------------------------------------------------------------------------

  function DigitChar(d: nat): (c: char)
    requires d < 10
    ensures IsDigit(c)
  {
    (48 + d) as char
  }

  function DigitValue(c: char): (d: nat)
    requires IsDigit(c)
    ensures d < 10 && DigitChar(d) == c
  {
    c as int - 48
  }

  /** Python's `str(n)` for a natural number: canonical decimal digits. */
  function NatToString(n: nat): (r: string)
    ensures |r| >= 1 && AllDigits(r)
    ensures |r| > 1 ==> r[0] != '0'
    decreases n
  {
    if n < 10 then [DigitChar(n)]
    else NatToString(n / 10) + [DigitChar(n % 10)]
  }

  /** Python's `str(i)` / `f"{i}"` / C's `%d` for any integer. */
  function IntToString(i: int): (r: string)
    ensures |r| >= 1
  {
    if i < 0 then "-" + NatToString(-i) else NatToString(i)
  }

  /** The value of a run of decimal digits (leading zeros allowed). */
  function DigitsValue(s: string): nat
    requires AllDigits(s)
  {
    if s == [] then 0 else DigitsValue(s[..|s| - 1]) * 10 + DigitValue(s[|s| - 1])
  }

  /** Python's `int(s)` on decimal text: surrounding white space is ignored, an
      optional sign may precede a non-empty run of ASCII digits; anything else
      raises `ValueError`, modelled as `None`. */
  function ParseInt(s: string): Option<int>
  {
    var t := Strip(s);
    if |t| > 0 && (t[0] == '-' || t[0] == '+') then
      var body := t[1..];
      if |body| > 0 && AllDigits(body) then
        var v: int := DigitsValue(body);
        Some(if t[0] == '-' then -v else v)
      else None
    else if |t| > 0 && AllDigits(t) then Some(DigitsValue(t))
    else None
  }

  lemma {:induction false} DigitsOfNat(n: nat)
    ensures DigitsValue(NatToString(n)) == n
    decreases n
  {
    if n >= 10 {
      var r := NatToString(n);
      assert r[..|r| - 1] == NatToString(n / 10);
      DigitsOfNat(n / 10);
    }
  }

  /** Text written with `str(i)` / `%d` reads back with `int()` as `i`. */
  lemma ParseFormatted(i: int)
    ensures ParseInt(IntToString(i)) == Some(i)
  {
    if i < 0 {
      ParseNegative(i);
    } else {
      ParseNatural(i);
    }
  }

  lemma ParseNatural(n: nat)
    ensures ParseInt(NatToString(n)) == Some(n)
  {
    var r := NatToString(n);
    assert Unpadded(r);
    StripUnpadded(r);
    assert r[0] != '-' && r[0] != '+';
    DigitsOfNat(n);
  }

  lemma ParseNegative(i: int)
    requires i < 0
    ensures ParseInt("-" + NatToString(-i)) == Some(i)
  {
    var n: nat := -i;
    var d := NatToString(n);
    var r := "-" + d;
    assert r[|r| - 1] == d[|d| - 1];
    assert Unpadded(r);
    StripUnpadded(r);
    assert r[1..] == d;
    DigitsOfNat(n);
  }

  /** Python's `f"{n:02d}"`: at least two characters, zero-filled after any sign. */
  function Pad2(n: int): (r: string)
    ensures 0 <= n < 100 ==> |r| == 2 && AllDigits(r) && DigitsValue(r) == n
  {
    if 0 <= n < 10 then
      var r := ['0', DigitChar(n)];
      assert r[..1] == ['0'] && DigitValue(r[1]) == n;
      assert DigitsValue(r) == DigitsValue(['0']) * 10 + n;
      r
    else
      var r := IntToString(n);
      assert 10 <= n < 100 ==> |r| == 2 && DigitsValue(r) == n by {
        if 10 <= n < 100 {
          assert r == NatToString(n / 10) + [DigitChar(n % 10)];
          DigitsOfNat(n);
        }
      }
      r
  }

  /** A two-digit field reads back with `int()` as the number written. */
  lemma ParsePad2(n: int)
    requires 0 <= n < 100
    ensures ParseInt(Pad2(n)) == Some(n)
  {
    var r := Pad2(n);
    assert Unpadded(r);
    StripUnpadded(r);
  }

  // ---------------------------------------------------------------------------
  // ordering and case
  // ---------------------------------------------------------------------------

  /** Python's `a < b` on strings: lexicographic by code point, a proper
      prefix first. */
  predicate LexLess(a: string, b: string)
    decreases |a|
  {
    if |a| == 0 then |b| > 0
    else if |b| == 0 then false
    else if a[0] != b[0] then a[0] < b[0]
    else LexLess(a[1..], b[1..])
  }

  lemma {:induction false} LexLessIrreflexive(a: string)
    ensures !LexLess(a, a)
    decreases |a|
  {
    if |a| > 0 {
      LexLessIrreflexive(a[1..]);
    }
  }

  lemma {:induction false} LexLessAsymmetric(a: string, b: string)
    requires LexLess(a, b)
    ensures !LexLess(b, a)
    decreases |a|
  {
    if |a| > 0 && |b| > 0 && a[0] == b[0] {
      LexLessAsymmetric(a[1..], b[1..]);
    }
  }

  lemma {:induction false} LexLessTransitive(a: string, b: string, c: string)
    requires LexLess(a, b) && LexLess(b, c)
    ensures LexLess(a, c)
    decreases |a|
  {
    if |a| > 0 && a[0] == b[0] && b[0] == c[0] {
      LexLessTransitive(a[1..], b[1..], c[1..]);
    }
  }

  lemma {:induction false} LexLessTotal(a: string, b: string)
    requires a != b
    ensures LexLess(a, b) || LexLess(b, a)
    decreases |a|
  {
    if |a| > 0 && |b| > 0 && a[0] == b[0] {
      assert a == [a[0]] + a[1..] && b == [b[0]] + b[1..];
      LexLessTotal(a[1..], b[1..]);
    }
  }

  /** `c.upper()` for ASCII letters; every other character is kept. */
  function UpperChar(c: char): char {
    if 'a' <= c <= 'z' then (c as int - 32) as char else c
  }

  /** `s.upper()`, restricted to ASCII case mapping. */
  function Upper(s: string): (r: string)
    ensures |r| == |s|
    ensures forall i :: 0 <= i < |s| ==> r[i] == UpperChar(s[i])
  {
    if s == [] then [] else [UpperChar(s[0])] + Upper(s[1..])
  }
}

=== FILE: vitals.dfy ===
/** The vitals screen: the serial reader that turns one line from the Arduino
    into three text fields, and the label update that shows those fields and
    classifies the reading by the blood-pressure bands the kiosk uses. */
module Vitals {
  import opened Options
  import opened Text

  datatype Category =
    | Optimal
    | Normal
    | HighNormal
    | Grade1
    | Grade2
    | Grade3
    | IsolatedSystolic

  /** The text the classification label shows for each category. */
  function CategoryText(c: Category): string {
    match c
    case Optimal => "Optimal"
    case Normal => "Normal"
    case HighNormal => "High Normal"
    case Grade1 => "Grade 1 Hypertension"
    case Grade2 => "Grade 2 Hypertension"
    case Grade3 => "Grade 3 Hypertension"
    case IsolatedSystolic => "Isolated Systolic Hypertension"
  }

  /** Alarming categories are drawn in red, the others in green. */
  predicate Alarming(c: Category) {
    c.Grade1? || c.Grade2? || c.Grade3? || c.IsolatedSystolic?
  }

  /** The band chain of `update_labels`, tried in order; `None` is a reading no
      band takes, for which the previous classification stays on screen. */
  function Classify(sys: int, dia: int): (r: Option<Category>)
    ensures r == Some(Optimal) <==> sys < 120 && dia < 80
    ensures r.Some? && r.value != Optimal ==> !(sys < 120 && dia < 80)
    ensures r == Some(Normal) ==> 120 <= sys <= 129 || 80 <= dia <= 84
    ensures r == Some(HighNormal) ==> 130 <= sys <= 139 || 85 <= dia <= 89
    ensures r == Some(Grade1) ==> 140 <= sys <= 159 || 90 <= dia <= 99
    ensures r == Some(Grade2) ==> 160 <= sys <= 179 || 100 <= dia <= 109
    ensures r == Some(Grade3) ==> sys > 180 || dia > 110
    ensures r == Some(IsolatedSystolic) ==> sys > 140 && dia < 90
  {
    if sys < 120 && dia < 80 then Some(Optimal)
    else if 120 <= sys <= 129 || 80 <= dia <= 84 then Some(Normal)
    else if 130 <= sys <= 139 || 85 <= dia <= 89 then Some(HighNormal)
    else if 140 <= sys <= 159 || 90 <= dia <= 99 then Some(Grade1)
    else if 160 <= sys <= 179 || 100 <= dia <= 109 then Some(Grade2)
    else if sys > 180 || dia > 110 then Some(Grade3)
    else if sys > 140 && dia < 90 then Some(IsolatedSystolic)
    else None
  }

  /** Because every systolic value in 140..179 is taken by an earlier band and
      181 upwards by Grade 3, the isolated-systolic band is reached only for a
      systolic of exactly 180 with a diastolic below 80. */
  lemma IsolatedSystolicOnlyAt180(sys: int, dia: int)
    ensures Classify(sys, dia) == Some(IsolatedSystolic) <==> sys == 180 && dia < 80
  {
  }

  /** The readings the chain leaves unclassified: a diastolic of exactly 110
      together with a systolic below 120 or exactly 180. */
  lemma UnclassifiedReadings(sys: int, dia: int)
    ensures Classify(sys, dia).None? <==> dia == 110 && (sys < 120 || sys == 180)
  {
  }

  /** A systolic above 180 or a diastolic above 110 is Grade 3 only when no
      lower band matched first: the checks are by "or", so a high diastolic
      with a systolic in 120..129 still reads as Normal. */
  lemma Grade3Reached(sys: int, dia: int)
    ensures Classify(sys, dia) == Some(Grade3) <==>
      (sys > 180 || dia > 110) && !(sys < 120 && dia < 80)
      && !(120 <= sys <= 179) && !(80 <= dia <= 109)
  {
  }

  /** The first-match rule for the middle bands: a reading is Normal exactly
      when it is not optimal and falls in the Normal band, and each later band
      is reached only when it matches and every earlier band missed. */
  lemma NormalReached(sys: int, dia: int)
    ensures Classify(sys, dia) == Some(Normal) <==>
      !(sys < 120 && dia < 80) && (120 <= sys <= 129 || 80 <= dia <= 84)
  {
  }

  lemma HighNormalReached(sys: int, dia: int)
    ensures Classify(sys, dia) == Some(HighNormal) <==>
      (130 <= sys <= 139 || 85 <= dia <= 89)
      && !(sys < 120 && dia < 80) && !(120 <= sys <= 129) && !(80 <= dia <= 84)
  {
  }

  lemma Grade1Reached(sys: int, dia: int)
    ensures Classify(sys, dia) == Some(Grade1) <==>
      (140 <= sys <= 159 || 90 <= dia <= 99)
      && !(sys < 120 && dia < 80) && !(120 <= sys <= 139) && !(80 <= dia <= 89)
  {
  }

  lemma Grade2Reached(sys: int, dia: int)
    ensures Classify(sys, dia) == Some(Grade2) <==>
      (160 <= sys <= 179 || 100 <= dia <= 109)
      && !(sys < 120 && dia < 80) && !(120 <= sys <= 159) && !(80 <= dia <= 99)
  {
  }

  /** The reading (125, 86) lies in both the Normal and High Normal bands and
      is shown as Normal, the earlier of the two. */
  lemma OverlapTakesEarlierBand()
    ensures Classify(125, 86) == Some(Normal)
    ensures Classify(125, 105) == Some(Normal)
  {
  }

  // ---------------------------------------------------------------------------
  // the serial reader
  // ---------------------------------------------------------------------------

  /** What the reader makes of one received line. */
  datatype LineResult =
    | Ignored
    | Reading(sys: string, dia: string, bpm: string)

  /** One line of `read_arduino_data`: the decoded line is stripped, an empty
      line and the literal `Err` are skipped, and otherwise it must split on
      `=` into exactly three fields (any other count raises `ValueError`,
      which the reader swallows). */
  function ReadSerialLine(raw: string): (r: LineResult)
    ensures r.Reading? ==> Strip(raw) != "" && Strip(raw) != "Err"
    ensures r.Reading? ==> Join([r.sys, r.dia, r.bpm], '=') == Strip(raw)
    ensures r.Reading? ==> '=' !in r.sys && '=' !in r.dia && '=' !in r.bpm
  {
    var line := Strip(raw);
    if line == "" || line == "Err" then Ignored
    else
      var parts := SplitOn(line, '=');
      if |parts| == 3 then
        JoinSplit(line, '=');
        ThreeParts(parts);
        Reading(parts[0], parts[1], parts[2])
      else Ignored
  }

  lemma ThreeParts(parts: seq<string>)
    requires |parts| == 3
    ensures parts == [parts[0], parts[1], parts[2]]
  {
  }

  /** Any stripped line of three `=`-free fields is read back as those fields. */
  lemma ReadSerialFields(a: string, b: string, c: string, pad: string)
    requires '=' !in a && '=' !in b && '=' !in c
    requires var line := Join([a, b, c], '='); Unpadded(line) && line != "Err"
    requires AllSpace(pad)
    ensures ReadSerialLine(Join([a, b, c], '=') + pad) == Reading(a, b, c)
  {
    var line := Join([a, b, c], '=');
    StripTrailingPadding(line, pad);
    SplitJoin([a, b, c], '=');
    Join3(a, b, c, '=');
    assert |line| >= 2;
  }

  // ---------------------------------------------------------------------------
  // the labels
  // ---------------------------------------------------------------------------

  /** The four labels of the vitals screen that the reader drives. */
  datatype Labels = Labels(sysText: string, diaText: string, bpmText: string, classification: string)

  /** Both fields parse as integers and the pair falls in some band. */
  predicate Classifies(sys: string, dia: string) {
    ParseInt(sys).Some? && ParseInt(dia).Some? && Classify(ParseInt(sys).value, ParseInt(dia).value).Some?
  }

  /** `update_labels`: any field equal to `Err` shows `Error` in all three value
      labels; otherwise the fields are shown as they came, and when the first two
      parse as integers the classification label follows the band chain. A parse
      failure or a reading no band takes leaves the classification as it was. */
  function UpdateLabels(l: Labels, sys: string, dia: string, bpm: string): (r: Labels)
    ensures sys == "Err" || dia == "Err" || bpm == "Err" ==>
      r == l.(sysText := "Error", diaText := "Error", bpmText := "Error")
    ensures !(sys == "Err" || dia == "Err" || bpm == "Err") ==>
      r.sysText == sys && r.diaText == dia && r.bpmText == bpm
    ensures sys == "Err" || dia == "Err" || bpm == "Err" || !Classifies(sys, dia) ==>
      r.classification == l.classification
    ensures !(sys == "Err" || dia == "Err" || bpm == "Err") && Classifies(sys, dia) ==>
      r.classification == CategoryText(Classify(ParseInt(sys).value, ParseInt(dia).value).value)
  {
    if sys == "Err" || dia == "Err" || bpm == "Err" then
      l.(sysText := "Error", diaText := "Error", bpmText := "Error")
    else
      var shown := l.(sysText := sys, diaText := dia, bpmText := bpm);
      match (ParseInt(sys), ParseInt(dia))
      case (Some(s), Some(d)) =>
        (match Classify(s, d)
         case Some(c) => shown.(classification := CategoryText(c))
         case None => shown)
      case _ => shown
  }

  /** The three fields the reader keeps (`bp_sys`, `bp_dia`, `bp_bpm`); saving a
      reading and re-entering the screen use them. */
  datatype Fields = Fields(sys: string, dia: string, bpm: string)

  /** The reader's fields and the labels on screen. */
  datatype Screen = Screen(fields: Fields, labels: Labels)

  /** What the labels show on a fresh entry. */
  function Standby(): Labels {
    Labels("-SYSTOLIC-", "-DIASTOLIC-", "-HEART RATE-", "----")
  }

  /** One line of the reader loop: a line the reader reads always replaces the
      fields, monitoring or not, and updates the labels only while the screen
      is monitoring; any other line changes nothing. */
  function OnSerialLine(v: Screen, raw: string, monitoring: bool): (r: Screen)
    ensures ReadSerialLine(raw).Ignored? ==> r == v
    ensures ReadSerialLine(raw).Reading? ==>
      && ReadSerialLine(raw) == Reading(r.fields.sys, r.fields.dia, r.fields.bpm)
      && Join([r.fields.sys, r.fields.dia, r.fields.bpm], '=') == Strip(raw)
    ensures !monitoring ==> r.labels == v.labels
    ensures monitoring && ReadSerialLine(raw).Reading? ==>
      r.labels == UpdateLabels(v.labels, r.fields.sys, r.fields.dia, r.fields.bpm)
  {
    match ReadSerialLine(raw)
    case Ignored => v
    case Reading(s, d, p) =>
      var f := Fields(s, d, p);
      Screen(f, if monitoring then UpdateLabels(v.labels, s, d, p) else v.labels)
  }

  /** `on_enter`: with an unsaved reading the labels are redrawn from the kept
      fields; otherwise they go back to their placeholders. The fields stay. */
  function EnterScreen(v: Screen, hasUnsavedData: bool): (r: Screen)
    ensures r.fields == v.fields
    ensures hasUnsavedData ==>
      r.labels == UpdateLabels(v.labels, v.fields.sys, v.fields.dia, v.fields.bpm)
    ensures !hasUnsavedData ==> r.labels == Labels("-SYSTOLIC-", "-DIASTOLIC-", "-HEART RATE-", "----")
  {
    if hasUnsavedData then v.(labels := UpdateLabels(v.labels, v.fields.sys, v.fields.dia, v.fields.bpm))
    else v.(labels := Standby())
  }

  /** A line that arrives while the screen is not monitoring leaves the labels
      alone but is still kept: re-entering with unsaved data shows it. */
  lemma UnmonitoredLineReshown(v: Screen, a: string, b: string, c: string, pad: string)
    requires '=' !in a && '=' !in b && '=' !in c
    requires a != "Err" && b != "Err" && c != "Err"
    requires var line := Join([a, b, c], '='); Unpadded(line) && line != "Err"
    requires AllSpace(pad)
    ensures var r := OnSerialLine(v, Join([a, b, c], '=') + pad, false);
      && r.labels == v.labels
      && r.fields == Fields(a, b, c)
      && var e := EnterScreen(r, true).labels;
      && e.sysText == a && e.diaText == b && e.bpmText == c
  {
    ReadSerialFields(a, b, c, pad);
  }

  /** A reading of two well-formed integers shows its classification. */
  lemma ClassifiedReading(l: Labels, sys: int, dia: int, bpm: string, c: Category)
    requires bpm != "Err"
    requires Classify(sys, dia) == Some(c)
    ensures UpdateLabels(l, IntToString(sys), IntToString(dia), bpm).classification == CategoryText(c)
  {
    ParseFormatted(sys);
    ParseFormatted(dia);
    NotErr(sys);
    NotErr(dia);
  }

  /** The text of an integer is never the literal `Err`. */
  lemma NotErr(i: int)
    ensures IntToString(i) != "Err"
  {
    var t := IntToString(i);
    assert t[0] == '-' || IsDigit(t[0]);
  }

  /** The serial reader failing to open the port shows `Error` and keeps the
      classification. */
  lemma PortFailureShowsError(l: Labels)
    ensures var r := UpdateLabels(l, "Err", "Err", "Err");
      r.sysText == "Error" && r.diaText == "Error" && r.bpmText == "Error"
      && r.classification == l.classification
  {
  }
}

=== FILE: wifi_probe.dfy ===
/** The Linux connectivity probe shared by the main menu and the Wi-Fi screen:
    the output of `nmcli -t -f DEVICE,STATE dev` is cut into lines and the
    device counts as connected as soon as one line names a Wi-Fi device and
    carries the `:connected` state. A probe that fails or times out reports
    "not connected". */
module WifiProbe {
  import opened Options
  import opened Text

  /** The characters Python's `str.splitlines()` treats as line boundaries. */
  predicate IsLineBreak(c: char) {
    var n := c as int;
    || (10 <= n <= 13)
    || (28 <= n <= 30)
    || n == 0x85 || n == 0x2028 || n == 0x2029
  }

  predicate NoLineBreak(s: string) {
    forall i :: 0 <= i < |s| ==> !IsLineBreak(s[i])
  }

  /** The index of the first line boundary in `s`, or `|s|` when there is none. */
  function FirstBreak(s: string): (i: nat)
    ensures i <= |s|
    ensures NoLineBreak(s[..i])
    ensures i < |s| ==> IsLineBreak(s[i])
  {
    if s == [] then 0
    else if IsLineBreak(s[0]) then 0
    else
      var j := FirstBreak(s[1..]);
      assert s[..j + 1] == [s[0]] + s[1..][..j];
      j + 1
  }

  /** `s.splitlines()`: the text between boundaries, where `\r\n` counts as a
      single boundary and a final boundary does not open an empty last line. */
  function SplitLines(s: string): (lines: seq<string>)
    ensures forall k :: 0 <= k < |lines| ==> NoLineBreak(lines[k])
    ensures s == [] <==> lines == []
    decreases |s|
  {
    if s == [] then []
    else
      var i := FirstBreak(s);
      if i == |s| then [s]
      else
        var next := if s[i] == '\r' && i + 1 < |s| && s[i + 1] == '\n' then i + 2 else i + 1;
        [s[..i]] + SplitLines(s[next..])
  }

  /** The per-line test: a Wi-Fi device name and the connected state. */
  predicate ConnectedLine(line: string) {
    (Contains(line, "wlan") || Contains(line, "wifi")) && Contains(line, ":connected")
  }

  predicate SomeLineConnected(lines: seq<string>) {
    exists k :: 0 <= k < |lines| && ConnectedLine(lines[k])
  }

  /** The scan over the lines, stopping at the first connected one. */
  function AnyConnected(lines: seq<string>): (r: bool)
    ensures r <==> SomeLineConnected(lines)
  {
    if lines == [] then false
    else if ConnectedLine(lines[0]) then true
    else
      assert forall k :: 1 <= k < |lines| ==> lines[k] == lines[1..][k - 1];
      AnyConnected(lines[1..])
  }

  /** `_perform_wifi_check` / `_check_wifi_thread` on Linux: `None` is a probe
      that raised or timed out. */
  function WifiConnected(output: Option<string>): (r: bool)
    ensures output.None? ==> !r
    ensures output.Some? ==> (r <==> SomeLineConnected(SplitLines(output.value)))
  {
    match output
    case None => false
    case Some(out) => AnyConnected(SplitLines(out))
  }

  /** A line followed by a newline is split off as one line of its own. */
  lemma SplitLinesCons(line: string, rest: string)
    requires NoLineBreak(line)
    ensures SplitLines(line + "\n" + rest) == [line] + SplitLines(rest)
  {
    var s := line + "\n" + rest;
    assert s[..|line|] == line;
    assert FirstBreak(s) == |line| by {
      FirstBreakAt(s, |line|);
    }
    assert s[|line| + 1..] == rest;
  }

  lemma {:induction false} FirstBreakAt(s: string, i: nat)
    requires i < |s| && IsLineBreak(s[i]) && NoLineBreak(s[..i])
    ensures FirstBreak(s) == i
    decreases i
  {
    if i > 0 {
      assert s[0] == s[..i][0];
      assert s[1..][..i - 1] == s[..i][1..];
      FirstBreakAt(s[1..], i - 1);
    }
  }

  /** A single line with no boundary is the whole output. */
  lemma ProbeOneLine(line: string)
    requires NoLineBreak(line)
    ensures WifiConnected(Some(line)) == ConnectedLine(line)
  {
    if line != [] {
      assert FirstBreak(line) == |line|;
      assert SplitLines(line) == [line];
    }
  }

  /** The probe reads the output line by line: the answer for a first line and
      the rest is the first line's test or the answer for the rest. */
  lemma ProbeFirstLine(line: string, rest: string)
    requires NoLineBreak(line)
    ensures WifiConnected(Some(line + "\n" + rest)) == (ConnectedLine(line) || WifiConnected(Some(rest)))
  {
    SplitLinesCons(line, rest);
    var lines := SplitLines(rest);
    assert SplitLines(line + "\n" + rest)[1..] == lines;
  }
}

=== FILE: wifi_scan.dfy ===
/** The network list of the Wi-Fi screen, as `WifiScreen._perform_scan` builds
    it from the terse output of `nmcli -t -f ACTIVE,SSID dev wifi list`: one
    record per usable line, the first record for each SSID kept in tool order,
    then sorted by the key `(not active, ssid)`. */
module WifiScan {
  import opened Options
  import opened Text

  datatype Network = Network(ssid: string, active: bool)

  // ---------------------------------------------------------------------------
  // One line
  // ---------------------------------------------------------------------------

  /** `active_str.lower() == 'yes'`. Under Unicode lower-casing only `Y`/`y`,
      `E`/`e` and `S`/`s` become `y`, `e` and `s`, and the one character whose
      lower case is two characters (U+0130) yields none of them, so the test is
      exactly a three-letter ASCII case-insensitive match. */
  predicate IsYes(s: string) {
    && |s| == 3
    && (s[0] == 'y' || s[0] == 'Y')
    && (s[1] == 'e' || s[1] == 'E')
    && (s[2] == 's' || s[2] == 'S')
  }

  /** An SSID the scan accepts: non-empty after stripping and free of `--`
      (nmcli prints `--` for hidden networks). */
  predicate UsableSsid(ssid: string) {
    ssid != [] && !Contains(ssid, "--")
  }

  /** The record one output line offers, before deduplication: the line must
      contain `:`; it is split at the first `:`, the SSID is the stripped rest,
      and the network is active iff the part before is `yes` in any case. */
  function ScanLine(line: string): (r: Option<Network>)
    ensures r.Some? ==> ':' in line && UsableSsid(r.value.ssid) && Unpadded(r.value.ssid)
    ensures r.Some? ==> r.value.active == IsYes(SplitFirst(line, ':').0)
    ensures ':' !in line ==> r.None?
  {
    if ':' in line then
      var (activeText, rest) := SplitFirst(line, ':');
      var ssid := Strip(rest);
      if UsableSsid(ssid) then Some(Network(ssid, IsYes(activeText))) else None
    else None
  }

  /** A line in nmcli's terse format `ACTIVE:SSID` yields exactly that record,
      whatever white space surrounds the SSID. */
  lemma ScanLineReadsRecord(activeText: string, ssid: string, pad: string)
    requires ':' !in activeText
    requires UsableSsid(ssid) && Unpadded(ssid)
    requires AllSpace(pad)
    ensures ScanLine(activeText + ":" + ssid + pad) == Some(Network(ssid, IsYes(activeText)))
  {
    var line := activeText + ":" + ssid + pad;
    assert line == activeText + [':'] + (ssid + pad);
    IndexOfAfter(activeText, ':', ssid + pad);
    var i := IndexOf(line, ':');
    assert line[..i] == activeText;
    assert line[i + 1..] == ssid + pad;
    StripTrailingPadding(ssid, pad);
  }

  /** A line whose SSID is empty after stripping, or contains `--`, yields nothing. */
  lemma ScanLineRejects(activeText: string, rest: string)
    requires ':' !in activeText
    requires !UsableSsid(Strip(rest))
    ensures ScanLine(activeText + ":" + rest).None?
  {
    var line := activeText + ":" + rest;
    assert line == activeText + [':'] + rest;
    IndexOfAfter(activeText, ':', rest);
    assert line[IndexOf(line, ':') + 1..] == rest;
  }

  // ---------------------------------------------------------------------------
  // Keep-first deduplication
  // ---------------------------------------------------------------------------

  /** What each output line offers, in tool order. */
  function Parsed(lines: seq<string>): (r: seq<Option<Network>>)
    ensures |r| == |lines|
    ensures forall k :: 0 <= k < |r| && r[k].Some? ==> UsableSsid(r[k].value.ssid) && Unpadded(r[k].value.ssid)
  {
    if lines == [] then [] else [ScanLine(lines[0])] + Parsed(lines[1..])
  }

  lemma {:induction false} ParsedAt(lines: seq<string>, k: int)
    requires 0 <= k < |lines|
    ensures Parsed(lines)[k] == ScanLine(lines[k])
    decreases k
  {
    if k > 0 {
      ParsedAt(lines[1..], k - 1);
    }
  }

  /** The records offered, in tool order, duplicates included. */
  function Candidates(offers: seq<Option<Network>>): seq<Network>
  {
    if offers == [] then []
    else match offers[0]
      case Some(n) => [n] + Candidates(offers[1..])
      case None => Candidates(offers[1..])
  }

  function Ssids(s: seq<Network>): set<string> {
    set n | n in s :: n.ssid
  }

  predicate UniqueSsids(s: seq<Network>) {
    forall i, j :: 0 <= i < j < |s| ==> s[i].ssid != s[j].ssid
  }

  /** The first record of `c` with the given SSID. */
  function FirstWith(c: seq<Network>, ssid: string): Option<Network>
  {
    if c == [] then None
    else if c[0].ssid == ssid then Some(c[0])
    else FirstWith(c[1..], ssid)
  }

  /** The scan loop over what the lines offer: each record whose SSID is not
      yet in `found` is appended and its SSID added to `found`. */
  function Collect(offers: seq<Option<Network>>, found: set<string>): (r: seq<Network>)
    ensures forall k :: 0 <= k < |r| ==> r[k].ssid !in found
    ensures UniqueSsids(r)
  {
    if offers == [] then []
    else match offers[0]
      case Some(n) =>
        if n.ssid !in found then [n] + Collect(offers[1..], found + {n.ssid})
        else Collect(offers[1..], found)
      case None => Collect(offers[1..], found)
  }

  lemma SsidsCons(n: Network, s: seq<Network>)
    ensures Ssids([n] + s) == {n.ssid} + Ssids(s)
  {
    assert forall m :: m in [n] + s <==> m == n || m in s;
  }

  /** Every record the loop keeps is the first one offered with its SSID. */
  lemma {:induction false} CollectFirst(offers: seq<Option<Network>>, found: set<string>)
    ensures forall x :: x in Collect(offers, found) ==> FirstWith(Candidates(offers), x.ssid) == Some(x)
    decreases |offers|
  {
    if offers != [] {
      var rest := offers[1..];
      match offers[0]
      case Some(n) =>
        assert Candidates(offers) == [n] + Candidates(rest);
        if n.ssid !in found {
          var found' := found + {n.ssid};
          CollectFirst(rest, found');
          var tail := Collect(rest, found');
          assert Collect(offers, found) == [n] + tail;
          forall x | x in [n] + tail
            ensures FirstWith(Candidates(offers), x.ssid) == Some(x)
          {
            if x != n {
              assert x in tail;
              var k :| 0 <= k < |tail| && tail[k] == x;
              assert x.ssid !in found';
            }
          }
        } else {
          CollectFirst(rest, found);
          var tail := Collect(rest, found);
          forall x | x in tail
            ensures FirstWith(Candidates(offers), x.ssid) == Some(x)
          {
            var k :| 0 <= k < |tail| && tail[k] == x;
            assert x.ssid !in found;
          }
        }
      case None =>
        CollectFirst(rest, found);
    }
  }

  /** The loop keeps one record for every SSID offered and not already found. */
  lemma {:induction false} CollectSsids(offers: seq<Option<Network>>, found: set<string>)
    ensures Ssids(Collect(offers, found)) == Ssids(Candidates(offers)) - found
    decreases |offers|
  {
    if offers != [] {
      var rest := offers[1..];
      match offers[0]
      case Some(n) =>
        assert Candidates(offers) == [n] + Candidates(rest);
        SsidsCons(n, Candidates(rest));
        if n.ssid !in found {
          var found' := found + {n.ssid};
          CollectSsids(rest, found');
          assert Collect(offers, found) == [n] + Collect(rest, found');
          SsidsCons(n, Collect(rest, found'));
        } else {
          CollectSsids(rest, found);
        }
      case None =>
        CollectSsids(rest, found);
    }
  }

  /** What the loop keeps is, for every SSID offered and not already found,
      exactly the first record offered with that SSID. */
  lemma CollectKeepsFirst(offers: seq<Option<Network>>, found: set<string>)
    ensures forall x :: x in Collect(offers, found) ==> FirstWith(Candidates(offers), x.ssid) == Some(x)
    ensures Ssids(Collect(offers, found)) == Ssids(Candidates(offers)) - found
  {
    CollectFirst(offers, found);
    CollectSsids(offers, found);
  }

  // ---------------------------------------------------------------------------
  // Sorting by (not active, ssid)
  // ---------------------------------------------------------------------------

  /** `a` sorts strictly before `b` under the key `(not active, ssid)`:
      `False < True` on the first component, code-point order on the second. */
  predicate KeyLess(a: Network, b: Network) {
    || (a.active && !b.active)
    || (a.active == b.active && LexLess(a.ssid, b.ssid))
  }

  lemma KeyLessTransitive(a: Network, b: Network, c: Network)
    requires KeyLess(a, b) && KeyLess(b, c)
    ensures KeyLess(a, c)
  {
    if a.active == b.active && b.active == c.active {
      LexLessTransitive(a.ssid, b.ssid, c.ssid);
    }
  }

  /** Two different records are always ordered one way: the key determines the record. */
  lemma KeyLessTotal(a: Network, b: Network)
    requires a != b
    ensures KeyLess(a, b) || KeyLess(b, a)
  {
    if a.active == b.active {
      LexLessTotal(a.ssid, b.ssid);
    }
  }

  lemma KeyLessIrreflexive(a: Network)
    ensures !KeyLess(a, a)
  {
    LexLessIrreflexive(a.ssid);
  }

  /** No record sorts after a later one. */
  predicate Sorted(s: seq<Network>) {
    forall i, j :: 0 <= i < j < |s| ==> !KeyLess(s[j], s[i])
  }

  /** Inserts `x` after every record that does not sort after it. */
  function Insert(x: Network, s: seq<Network>): (r: seq<Network>)
    requires Sorted(s)
    ensures Sorted(r)
    ensures multiset(r) == multiset(s) + multiset{x}
  {
    if s == [] then [x]
    else if KeyLess(x, s[0]) then
      SortedFront(x, s);
      [x] + s
    else
      var t := Insert(x, s[1..]);
      assert s == [s[0]] + s[1..];
      forall y | y in t ensures !KeyLess(y, s[0]) {
        assert y in multiset(t);
        if y != x {
          assert y in multiset(s[1..]);
        }
      }
      SortedCons(s[0], t);
      [s[0]] + t
  }

  lemma SortedFront(x: Network, s: seq<Network>)
    requires Sorted(s) && s != [] && KeyLess(x, s[0])
    ensures Sorted([x] + s)
  {
    forall j | 0 <= j < |s| ensures !KeyLess(s[j], x) {
      KeyLessIrreflexive(s[0]);
      if KeyLess(s[j], x) {
        KeyLessTransitive(s[j], x, s[0]);
      }
    }
  }

  lemma SortedCons(h: Network, t: seq<Network>)
    requires Sorted(t)
    requires forall y :: y in t ==> !KeyLess(y, h)
    ensures Sorted([h] + t)
  {
    var r := [h] + t;
    forall i, j | 0 <= i < j < |r| ensures !KeyLess(r[j], r[i]) {
      assert r[j] == t[j - 1];
      if i > 0 {
        assert r[i] == t[i - 1];
      }
    }
  }

  /** Records with the same members have the same SSIDs. */
  lemma SsidsOfPermutation(a: seq<Network>, b: seq<Network>)
    requires multiset(a) == multiset(b)
    ensures Ssids(a) == Ssids(b)
  {
    forall n | n in a ensures n in b {
      assert n in multiset(a);
    }
    forall n | n in b ensures n in a {
      assert n in multiset(b);
    }
  }

  lemma UniqueCons(h: Network, t: seq<Network>)
    requires UniqueSsids(t)
    requires forall y :: y in t ==> y.ssid != h.ssid
    ensures UniqueSsids([h] + t)
  {
    var r := [h] + t;
    forall i, j | 0 <= i < j < |r| ensures r[i].ssid != r[j].ssid {
      assert r[j] == t[j - 1];
      if i > 0 {
        assert r[i] == t[i - 1];
      }
    }
  }

  /** Inserting a record with a new SSID keeps SSIDs unique. */
  lemma {:induction false} InsertUnique(x: Network, s: seq<Network>)
    requires Sorted(s) && UniqueSsids(s) && x.ssid !in Ssids(s)
    ensures UniqueSsids(Insert(x, s))
    decreases |s|
  {
    if s == [] {
    } else if KeyLess(x, s[0]) {
      UniqueCons(x, s);
    } else {
      var t := Insert(x, s[1..]);
      assert s == [s[0]] + s[1..];
      assert Ssids(s[1..]) <= Ssids(s);
      assert UniqueSsids(s[1..]);
      InsertUnique(x, s[1..]);
      forall y | y in t ensures y.ssid != s[0].ssid {
        assert y in multiset(t);
        if y != x {
          assert y in multiset(s[1..]);
          var k :| 0 <= k < |s[1..]| && s[1..][k] == y;
          assert s[k + 1] == y;
        }
      }
      UniqueCons(s[0], t);
    }
  }

  /** Insertion sort under the scan's key. */
  function Sort(s: seq<Network>): (r: seq<Network>)
    ensures Sorted(r)
    ensures multiset(r) == multiset(s)
    ensures Ssids(r) == Ssids(s)
    ensures UniqueSsids(s) ==> UniqueSsids(r)
  {
    if s == [] then []
    else
      var init := s[..|s| - 1];
      var last := s[|s| - 1];
      SplitLast(s);
      var sortedInit := Sort(init);
      var r := Insert(last, sortedInit);
      SsidsOfPermutation(r, s);
      if UniqueSsids(s) then
        InsertUnique(last, sortedInit);
        r
      else r
  }

  lemma SplitLast(s: seq<Network>)
    requires s != []
    ensures multiset(s) == multiset(s[..|s| - 1]) + multiset{s[|s| - 1]}
    ensures UniqueSsids(s) ==> UniqueSsids(s[..|s| - 1]) && s[|s| - 1].ssid !in Ssids(s[..|s| - 1])
  {
    var init := s[..|s| - 1];
    assert s == init + [s[|s| - 1]];
  }

  /** The head of a sorted arrangement sorts after none of its members. */
  lemma SortedHeadLeast(b: seq<Network>, y: Network)
    requires Sorted(b) && b != [] && y in b
    ensures !KeyLess(y, b[0])
  {
    var k :| 0 <= k < |b| && b[k] == y;
    if k == 0 {
      KeyLessIrreflexive(y);
    }
  }

  /** A sorted arrangement is unique: any sort by this key — Python's `list.sort`
      in particular — produces exactly `Sort(s)`. */
  lemma {:induction false} SortedPermutationUnique(a: seq<Network>, b: seq<Network>)
    requires Sorted(a) && Sorted(b)
    requires multiset(a) == multiset(b)
    ensures a == b
    decreases |a|
  {
    if a != [] {
      SortedHeadsEqual(a, b);
      SortedTails(a, b);
      SortedPermutationUnique(a[1..], b[1..]);
      assert a == [a[0]] + a[1..] && b == [b[0]] + b[1..];
    }
  }

  /** Two sorted permutations with the same head leave sorted permutations. */
  lemma SortedTails(a: seq<Network>, b: seq<Network>)
    requires Sorted(a) && Sorted(b) && a != [] && b != [] && a[0] == b[0]
    requires multiset(a) == multiset(b)
    ensures Sorted(a[1..]) && Sorted(b[1..])
    ensures multiset(a[1..]) == multiset(b[1..])
  {
    SortedTail(a);
    SortedTail(b);
    MultisetTail(a);
    MultisetTail(b);
  }

  lemma SortedTail(a: seq<Network>)
    requires Sorted(a) && a != []
    ensures Sorted(a[1..])
  {
    var t := a[1..];
    forall i, j | 0 <= i < j < |t|
      ensures !KeyLess(t[j], t[i])
    {
      assert t[i] == a[i + 1] && t[j] == a[j + 1];
    }
  }

  lemma MultisetTail(a: seq<Network>)
    requires a != []
    ensures multiset(a[1..]) == multiset(a) - multiset{a[0]}
  {
    assert a == [a[0]] + a[1..];
  }

  lemma SortedHeadsEqual(a: seq<Network>, b: seq<Network>)
    requires Sorted(a) && Sorted(b) && a != []
    requires multiset(a) == multiset(b)
    ensures b != [] && a[0] == b[0]
  {
    assert a[0] in multiset(b);
    assert b[0] in multiset(a);
    SortedHeadLeast(b, a[0]);
    SortedHeadLeast(a, b[0]);
    if a[0] != b[0] {
      KeyLessTotal(a[0], b[0]);
    }
  }

  /** Any sorted rearrangement of `s` is `Sort(s)`. */
  lemma SortIsTheSort(s: seq<Network>, t: seq<Network>)
    requires Sorted(t) && multiset(t) == multiset(s)
    ensures t == Sort(s)
  {
    SortedPermutationUnique(t, Sort(s));
  }

  // ---------------------------------------------------------------------------
  // The whole scan result
  // ---------------------------------------------------------------------------

  /** The network list one successful listing yields: every usable line's
      record, first occurrence per SSID, sorted by `(not active, ssid)`. */
  function ScanNetworks(output: string): (r: seq<Network>)
    ensures UniqueSsids(r)
    ensures Sorted(r)
    ensures forall k :: 0 <= k < |r| ==> UsableSsid(r[k].ssid) && Unpadded(r[k].ssid)
    ensures forall x :: x in r ==> FirstWith(Candidates(Parsed(SplitOn(output, '\n'))), x.ssid) == Some(x)
    ensures Ssids(r) == Ssids(Candidates(Parsed(SplitOn(output, '\n'))))
  {
    var offers := Parsed(SplitOn(output, '\n'));
    var kept := Collect(offers, {});
    CollectOffered(offers, {});
    CollectKeepsFirst(offers, {});
    var r := Sort(kept);
    forall k | 0 <= k < |r| ensures UsableSsid(r[k].ssid) && Unpadded(r[k].ssid) {
      assert r[k] in multiset(kept);
    }
    forall x | x in r ensures FirstWith(Candidates(offers), x.ssid) == Some(x) {
      assert x in multiset(kept);
    }
    r
  }

  /** Every record the loop keeps was offered by some line. */
  lemma {:induction false} CollectOffered(offers: seq<Option<Network>>, found: set<string>)
    requires forall k :: 0 <= k < |offers| && offers[k].Some? ==>
      UsableSsid(offers[k].value.ssid) && Unpadded(offers[k].value.ssid)
    ensures forall x :: x in Collect(offers, found) ==> x in Candidates(offers)
    ensures forall x :: x in Candidates(offers) ==> UsableSsid(x.ssid) && Unpadded(x.ssid)
    decreases |offers|
  {
    if offers != [] {
      var rest := offers[1..];
      assert forall k :: 0 <= k < |rest| ==> rest[k] == offers[k + 1];
      match offers[0]
      case Some(n) =>
        CollectOffered(rest, found + {n.ssid});
        CollectOffered(rest, found);
      case None =>
        CollectOffered(rest, found);
    }
  }

  /** Active networks come first, and each group is in code-point order of SSID. */
  lemma ActiveFirst(output: string)
    ensures var r := ScanNetworks(output);
      forall i, j :: 0 <= i < j < |r| ==> (r[j].active ==> r[i].active)
  {
  }

  /** The first record offered for an SSID is in the result, and it is the only
      one with that SSID: an active duplicate listed after an inactive one is
      dropped, and an SSID is never lost. */
  lemma FirstOccurrenceWins(output: string, ssid: string, n: Network)
    requires FirstWith(Candidates(Parsed(SplitOn(output, '\n'))), ssid) == Some(n)
    ensures n in ScanNetworks(output)
    ensures forall x :: x in ScanNetworks(output) && x.ssid == ssid ==> x == n
  {
    var offers := Parsed(SplitOn(output, '\n'));
    var kept := Collect(offers, {});
    CollectKeepsFirst(offers, {});
    FirstWithFound(Candidates(offers), ssid);
    var r := ScanNetworks(output);
    assert multiset(r) == multiset(kept);
    assert ssid in Ssids(kept);
    var y :| y in kept && y.ssid == ssid;
    assert y in multiset(r);
    forall x | x in r && x.ssid == ssid ensures x == n {
      assert x in multiset(kept);
    }
  }

  lemma {:induction false} FirstWithFound(c: seq<Network>, ssid: string)
    requires FirstWith(c, ssid).Some?
    ensures FirstWith(c, ssid).value in c && FirstWith(c, ssid).value.ssid == ssid
    ensures ssid in Ssids(c)
  {
    if c[0].ssid != ssid {
      FirstWithFound(c[1..], ssid);
    }
  }
}

=== FILE: wifi_screen.dfy ===
/** The Wi-Fi screen (`WifiScreen` in AI.py) as a state record advanced by
    events. UI handlers are functions from a state to a new state plus the
    commands they issue (radio toggles, background jobs). A background job's
    completion is a function of the tool outcomes it met: it yields the tool
    calls it made, its direct writes to the screen state, and the callbacks
    it posted with `Clock.schedule_once`; those callbacks are applied later,
    in order, as events of their own.

    Every worker body in the source holds two near-identical copies of its
    logic, one after the other, and nothing returns between them except a
    scan listing that fails with an exception other than a timeout. The
    completions below therefore run both copies. */
module WifiScreen {
  import opened Options
  import opened Text
  import opened WifiScan

  // ---------------------------------------------------------------------------
  // State
  // ---------------------------------------------------------------------------

  /** Which page of the screen's inner manager is showing. */
  datatype Subscreen = ListView | PasswordView

  /** What pressing a network button does. */
  datatype Tap = ToggleExpand(ssid: string) | PrepareConnection(ssid: string)

  /** One entry of the rendered list. An expanded row has two buttons: its title
      collapses it again and its lower button disconnects the network. */
  datatype Row =
    | PlainRow(ssid: string, caption: string, onTap: Tap)
    | ExpandedRow(ssid: string, caption: string)

  datatype WifiState = WifiState(
    switchOn: bool,           // the on-screen Wi-Fi switch
    scanning: bool,
    expanded: Option<string>, // `expanded_ssid`
    selected: string,         // `selected_ssid`
    subscreen: Subscreen,
    status: string,           // the status label
    networks: seq<Network>,   // `cached_networks`
    rows: seq<Row>,           // the list layout's contents
    prompt: string,           // the password page's prompt
    passInput: string)        // the password field

  /** The screen as constructed: class defaults, empty list, list page. The
      status label's initial text comes from the layout file and is taken to
      be empty. */
  function Initial(switchOn: bool): (st: WifiState)
    ensures !st.scanning && st.expanded == None && st.networks == [] && st.rows == []
  {
    WifiState(switchOn, false, None, "", ListView, "", [], [], "", "")
  }

  /** Background work the front end starts on a new thread. */
  datatype Job =
    | ScanJob
    | DisconnectJob(ssid: string)
    | SavedConnectJob(ssid: string)
    | ConnectJob(ssid: string, password: string)

  /** What a handler asks of the outside world. `SetRadio` is the blocking,
      failure-swallowing `nmcli radio wifi on|off`. */
  datatype Command = SetRadio(on: bool) | Spawn(job: Job)

  datatype Step = Step(st: WifiState, commands: seq<Command>)

  // ---------------------------------------------------------------------------
  // Rendering (`_render_network_list`)
  // ---------------------------------------------------------------------------

  function ConnectedLabel(ssid: string): string {
    ssid + " (Connected)"
  }

  /** The row for one network: expanded when it is the expanded SSID (whatever
      its active flag); otherwise a plain button that toggles expansion for an
      active network and starts connecting for an inactive one. */
  function RowFor(n: Network, expanded: Option<string>): (r: Row)
    ensures r.ssid == n.ssid
    ensures r.ExpandedRow? <==> expanded == Some(n.ssid)
    ensures r.PlainRow? ==> (r.onTap.ToggleExpand? <==> n.active) && r.onTap.ssid == n.ssid
    ensures StartsWith(r.caption, n.ssid)
    ensures r.caption == ConnectedLabel(n.ssid) <==> (n.active || r.ExpandedRow?)
  {
    if expanded == Some(n.ssid) then ExpandedRow(n.ssid, ConnectedLabel(n.ssid))
    else if n.active then PlainRow(n.ssid, ConnectedLabel(n.ssid), ToggleExpand(n.ssid))
    else
      assert |n.ssid| < |ConnectedLabel(n.ssid)|;
      PlainRow(n.ssid, n.ssid, PrepareConnection(n.ssid))
  }

  /** One row per network, in list order. */
  function Rows(nets: seq<Network>, expanded: Option<string>): (r: seq<Row>)
    ensures |r| == |nets|
    ensures forall i :: 0 <= i < |nets| ==> r[i] == RowFor(nets[i], expanded)
  {
    seq(|nets|, i requires 0 <= i < |nets| => RowFor(nets[i], expanded))
  }

  function FoundStatus(count: nat): string {
    "Found " + IntToString(count) + " networks."
  }

  /** Rebuilds the list from the cached networks. Clears `scanning` in every
      case; with the switch off or no networks it shows no rows. */
  function Render(st: WifiState): (r: WifiState)
    ensures !r.scanning
    ensures r == st.(scanning := false, status := r.status, rows := r.rows)
    ensures !st.switchOn ==> r.rows == [] && r.status == "Wi-Fi is turned off."
    ensures st.switchOn && st.networks == [] ==> r.rows == [] && r.status == "No networks found."
    ensures st.switchOn && st.networks != [] ==>
      r.status == FoundStatus(|st.networks|) && r.rows == Rows(st.networks, st.expanded)
  {
    var cleared := st.(rows := [], scanning := false);
    if !st.switchOn then cleared.(status := "Wi-Fi is turned off.")
    else if st.networks == [] then cleared.(status := "No networks found.")
    else cleared.(status := FoundStatus(|st.networks|), rows := Rows(st.networks, st.expanded))
  }

  /** With distinct SSIDs at most one row is ever expanded. */
  lemma AtMostOneExpanded(st: WifiState, i: int, j: int)
    requires UniqueSsids(st.networks)
    requires var r := Render(st).rows; 0 <= i < |r| && 0 <= j < |r| && r[i].ExpandedRow? && r[j].ExpandedRow?
    ensures i == j
  {
  }

  // ---------------------------------------------------------------------------
  // Expansion (`toggle_expand`)
  // ---------------------------------------------------------------------------

  /** The new `expanded_ssid` after a press on `ssid`'s row. */
  function ToggleExpanded(e: Option<string>, ssid: string): (r: Option<string>)
    ensures r == None <==> e == Some(ssid)
    ensures r != None ==> r == Some(ssid)
  {
    if e == Some(ssid) then None else Some(ssid)
  }

  /** Two presses on the same row restore the expansion when it was that row or
      none; when another row was expanded they leave nothing expanded. */
  lemma ToggleTwice(e: Option<string>, ssid: string)
    ensures e == None || e == Some(ssid) ==> ToggleExpanded(ToggleExpanded(e, ssid), ssid) == e
    ensures e != None && e != Some(ssid) ==> ToggleExpanded(ToggleExpanded(e, ssid), ssid) == None
  {
  }

  function ToggleExpandEvent(st: WifiState, ssid: string): WifiState {
    Render(st.(expanded := ToggleExpanded(st.expanded, ssid)))
  }

  /** Toggling re-renders, and rendering clears `scanning` even while a scan
      worker is still running: the scan guard can be re-opened mid-scan. */
  lemma ToggleClearsScanning(st: WifiState, ssid: string)
    ensures !ToggleExpandEvent(st, ssid).scanning
    ensures ToggleExpandEvent(st, ssid).expanded == ToggleExpanded(st.expanded, ssid)
  {
  }

  // ---------------------------------------------------------------------------
  // Scanning (`scan_wifi`, `on_enter`, `toggle_wifi_state`)
  // ---------------------------------------------------------------------------

  /** `scan_wifi`: refused while a scan is marked running, refused with a hint
      while the switch is off; otherwise marks the scan running, collapses any
      expanded row, empties the list and starts one scan job. */
  function ScanWifi(st: WifiState): (r: Step)
    ensures st.scanning ==> r == Step(st, [])
    ensures !st.scanning && !st.switchOn ==>
      r == Step(st.(status := "Wi-Fi is off. Enable to scan."), [])
    ensures !st.scanning && st.switchOn ==>
      && r.st.scanning && r.st.expanded == None && r.st.rows == []
      && r.st.status == "Scanning for networks..."
      && r.st.networks == st.networks && r.st.subscreen == st.subscreen
      && r.commands == [Spawn(ScanJob)]
  {
    if st.scanning then Step(st, [])
    else if !st.switchOn then Step(st.(status := "Wi-Fi is off. Enable to scan."), [])
    else Step(st.(scanning := true, expanded := None, status := "Scanning for networks...", rows := []),
              [Spawn(ScanJob)])
  }

  /** A second `scan_wifi` straight after a first changes nothing and starts
      nothing: at most one scan job is started per running flag. */
  lemma ScanTwice(st: WifiState)
    ensures ScanWifi(ScanWifi(st).st) == Step(ScanWifi(st).st, [])
  {
  }

  /** `on_enter`: back to the list page, then scan if the switch is on. */
  function OnEnter(st: WifiState): (r: Step)
    ensures r.st.subscreen == ListView
    ensures !st.switchOn ==> r.commands == [] && r.st.rows == [] && r.st.status == "Wi-Fi is disabled."
    ensures st.switchOn && st.scanning ==> r == Step(st.(subscreen := ListView), [])
    ensures st.switchOn && !st.scanning ==>
      && r.commands == [Spawn(ScanJob)]
      && r.st.scanning && r.st.expanded == None && r.st.rows == []
      && r.st.status == "Scanning for networks..."
      && r.st.networks == st.networks
  {
    var st1 := st.(subscreen := ListView);
    if st1.switchOn then ScanWifi(st1)
    else Step(st1.(status := "Wi-Fi is disabled.", rows := []), [])
  }

  /** The switch moved to `on` and `toggle_wifi_state(on)` ran. Turning it on
      switches the radio on and then scans; turning it off empties the list,
      switches the radio off and clears `scanning`. */
  function SwitchChanged(st: WifiState, on: bool): (r: Step)
    ensures r.st.switchOn == on
    ensures |r.commands| >= 1 && r.commands[0] == SetRadio(on)
    ensures !on ==> !r.st.scanning && r.st.rows == [] && r.st.status == "Wi-Fi is turned off." && |r.commands| == 1
    ensures on && !st.scanning ==> r.commands == [SetRadio(true), Spawn(ScanJob)] && r.st.scanning
    ensures on && st.scanning ==> r.commands == [SetRadio(true)] && r.st.status == "Enabling Wi-Fi..."
  {
    var st1 := st.(switchOn := on);
    if on then
      var s := ScanWifi(st1.(status := "Enabling Wi-Fi..."));
      Step(s.st, [SetRadio(true)] + s.commands)
    else
      Step(st1.(status := "Wi-Fi is turned off.", rows := [], scanning := false), [SetRadio(false)])
  }

  // ---------------------------------------------------------------------------
  // Saved profiles and the connect decisions
  // ---------------------------------------------------------------------------

  /** `has_saved_profile`: the profile names are the stripped output of
      `nmcli -g NAME connection show` split at newlines, and the SSID must
      equal one of them exactly. A failed query (`None`: timeout, non-zero exit,
      undecodable output) counts as no profile. */
  function HasSavedProfile(ssid: string, names: Option<string>): (b: bool)
    ensures names == None ==> !b
  {
    match names
    case None => false
    case Some(out) => ssid in SplitOn(Strip(out), '\n')
  }

  /** For a listing of clean profile names, one per line, the lookup is exactly
      membership in the list of names. */
  lemma SavedProfileIsMembership(ssid: string, names: seq<string>, trailer: string)
    requires |names| >= 1
    requires forall k :: 0 <= k < |names| ==> names[k] != [] && Unpadded(names[k]) && '\n' !in names[k]
    requires AllSpace(trailer)
    ensures HasSavedProfile(ssid, Some(Join(names, '\n') + trailer)) <==> ssid in names
  {
    var listing := Join(names, '\n');
    JoinUnpadded(names, '\n');
    StripTrailingPadding(listing, trailer);
    SplitJoin(names, '\n');
  }

  /** `_show_password_screen`: remembers the SSID, sets the prompt, clears the
      field and shows the password page. */
  function ShowPasswordScreen(st: WifiState, ssid: string): (r: WifiState)
    ensures r.subscreen == PasswordView && r.selected == ssid && r.passInput == ""
    ensures r == st.(subscreen := PasswordView, selected := ssid, passInput := "", prompt := r.prompt)
  {
    st.(selected := ssid, prompt := "Enter Password for: " + ssid, passInput := "", subscreen := PasswordView)
  }

  /** `prepare_connection`, bound to an inactive network's row: with a saved
      profile, connect with it in the background; otherwise ask for a password. */
  function PrepareConnectionEvent(st: WifiState, ssid: string, names: Option<string>): (r: Step)
    ensures HasSavedProfile(ssid, names) ==>
      r == Step(st.(status := "Connecting to saved network: " + ssid + "..."), [Spawn(SavedConnectJob(ssid))])
    ensures !HasSavedProfile(ssid, names) ==> r == Step(ShowPasswordScreen(st, ssid), [])
  {
    if HasSavedProfile(ssid, names) then
      Step(st.(status := "Connecting to saved network: " + ssid + "..."), [Spawn(SavedConnectJob(ssid))])
    else Step(ShowPasswordScreen(st, ssid), [])
  }

  /** `cancel_password`. */
  function CancelPassword(st: WifiState): (r: WifiState)
    ensures r.subscreen == ListView && r.passInput == ""
    ensures r.selected == st.selected && r.status == st.status && r.networks == st.networks
  {
    st.(subscreen := ListView, passInput := "")
  }

  /** The on-screen keyboard changed the password field. */
  function EditPassword(st: WifiState, text: string): (r: WifiState)
    ensures r.passInput == text
  {
    st.(passInput := text)
  }

  /** `connect_wifi`: connects to the selected SSID with whatever the password
      field holds (the field is not cleared) and returns to the list page. */
  function ConnectWifi(st: WifiState): (r: Step)
    ensures r.commands == [Spawn(ConnectJob(st.selected, st.passInput))]
    ensures r.st.subscreen == ListView && r.st.passInput == st.passInput
    ensures r.st.status == "Connecting to " + st.selected + "..."
  {
    Step(st.(subscreen := ListView, status := "Connecting to " + st.selected + "..."),
         [Spawn(ConnectJob(st.selected, st.passInput))])
  }

  /** `disconnect_wifi`, bound to an expanded row's lower button. */
  function DisconnectWifi(st: WifiState, ssid: string): (r: Step)
    ensures r.commands == [Spawn(DisconnectJob(ssid))]
    ensures r.st == st.(status := "Disconnecting " + ssid + "...")
  {
    Step(st.(status := "Disconnecting " + ssid + "..."), [Spawn(DisconnectJob(ssid))])
  }

  // ---------------------------------------------------------------------------
  // Posted callbacks
  // ---------------------------------------------------------------------------

  /** A callback a worker posts to the front end. */
  datatype Callback =
    | RenderList                 // `_render_network_list`
    | ShowStatus(text: string)   // `_update_status`
    | Rescan                     // `scan_wifi`
    | PasswordFallback(ssid: string) // `_prompt_password_fallback`

  function FallbackStatus(): string {
    "Saved connection failed. Please re-enter password."
  }

  function ApplyCallback(st: WifiState, cb: Callback): (r: Step)
    ensures cb.PasswordFallback? ==>
      r == Step(ShowPasswordScreen(st, cb.ssid).(status := FallbackStatus()), [])
    ensures cb.Rescan? ==> r == ScanWifi(st)
    ensures cb.RenderList? ==> r == Step(Render(st), [])
  {
    match cb
    case RenderList => Step(Render(st), [])
    case ShowStatus(text) => Step(st.(status := text), [])
    case Rescan => ScanWifi(st)
    case PasswordFallback(ssid) =>
      Step(ShowPasswordScreen(st.(status := FallbackStatus()), ssid), [])
  }

  /** Callbacks run in the order they were posted. */
  function ApplyCallbacks(st: WifiState, cbs: seq<Callback>): (r: Step)
    decreases |cbs|
  {
    if cbs == [] then Step(st, [])
    else
      var first := ApplyCallback(st, cbs[0]);
      var rest := ApplyCallbacks(first.st, cbs[1..]);
      Step(rest.st, first.commands + rest.commands)
  }

  /** The doubled rescan a connect or disconnect worker posts starts one scan,
      not two: the second finds the first's running flag. */
  lemma DoubleRescanScansOnce(st: WifiState)
    ensures ApplyCallbacks(st, [Rescan, Rescan]) == ScanWifi(st)
  {
    var once := ScanWifi(st);
    ScanTwice(st);
    assert ApplyCallbacks(once.st, [Rescan]) == Step(once.st, []);
    assert once.commands + [] == once.commands;
  }

  // ---------------------------------------------------------------------------
  // Worker completions
  // ---------------------------------------------------------------------------

  /** How one external command ended. `Raised` is any exception other than a
      timeout (missing binary, permission error). */
  datatype ToolRun = Exited(code: int) | TimedOut | Raised

  /** How the network listing of the first scan copy ended: `check_output`
      returns the text on exit status 0, and raises otherwise. */
  datatype ListRun = Listed(output: string) | ListTimedOut | ListFailed

  /** The `nmcli` invocations a worker makes. */
  datatype ToolCall =
    | RescanCall
    | ListCall
    | UpById(ssid: string)
    | UpByName(ssid: string)
    | DeleteById(ssid: string)
    | ConnectWithPassword(ssid: string, password: string)
    | DownById(ssid: string)
    | DownByName(ssid: string)

  /** A finished worker: the state after its direct writes, the commands it ran
      and the callbacks it posted. */
  datatype Completion = Completion(st: WifiState, calls: seq<ToolCall>, posted: seq<Callback>)

  /** `_perform_scan`. Copy one: a rescan hint whose failure is ignored, then the
      listing with a timeout; a timeout yields an empty list, any other failure
      posts "Scan Error", clears `scanning` and ends the worker. Otherwise the
      sorted result is cached and a render posted, and copy two repeats the
      listing without a timeout: failure posts "Scan Error or Wi-Fi Off" and
      clears `scanning`; success replaces the cache and posts a second render.
      The second copy's outcome is `None` for any failure. */
  function ScanWorker(st: WifiState, first: ListRun, second: Option<string>): (c: Completion)
    ensures first.ListFailed? ==>
      c == Completion(st.(scanning := false), [RescanCall, ListCall], [ShowStatus("Scan Error")])
    ensures !first.ListFailed? ==> c.calls == [RescanCall, ListCall, RescanCall, ListCall]
    ensures !first.ListFailed? && second.Some? ==>
      c.st == st.(networks := ScanNetworks(second.value)) && c.posted == [RenderList, RenderList]
    ensures !first.ListFailed? && second.None? ==>
      && c.st == st.(networks := FirstCopyNetworks(first), scanning := false)
      && c.posted == [RenderList, ShowStatus("Scan Error or Wi-Fi Off")]
  {
    var calls := [RescanCall, ListCall];
    if first.ListFailed? then Completion(st.(scanning := false), calls, [ShowStatus("Scan Error")])
    else
      var st1 := st.(networks := FirstCopyNetworks(first));
      match second
      case None =>
        Completion(st1.(scanning := false), calls + calls, [RenderList, ShowStatus("Scan Error or Wi-Fi Off")])
      case Some(out) =>
        Completion(st1.(networks := ScanNetworks(out)), calls + calls, [RenderList, RenderList])
  }

  /** The list copy one caches: the parsed listing, or nothing after a timeout. */
  function FirstCopyNetworks(first: ListRun): seq<Network> {
    match first
    case Listed(out) => ScanNetworks(out)
    case _ => []
  }

  /** Every scan resolves: once its callbacks have run, `scanning` is clear, no
      further job has been started, and the status tells the outcome. */
  lemma ScanResolves(st: WifiState, first: ListRun, second: Option<string>)
    ensures var c := ScanWorker(st, first, second);
      var done := ApplyCallbacks(c.st, c.posted);
      && !done.st.scanning
      && done.commands == []
      && (first.ListFailed? ==> done.st.status == "Scan Error" && done.st.networks == st.networks)
      && (!first.ListFailed? && second.None? ==> done.st.status == "Scan Error or Wi-Fi Off")
      && (!first.ListFailed? && second.Some? ==>
            && done.st.networks == ScanNetworks(second.value)
            && done.st == Render(c.st))
  {
    var c := ScanWorker(st, first, second);
    if !first.ListFailed? && second.Some? {
      var once := Render(c.st);
      assert Render(once) == once;
    }
  }

  /** `_perform_disconnect`: `connection down id <ssid>` then
      `connection down <ssid>`, each followed by a rescan whatever happened. */
  function DisconnectWorker(st: WifiState, ssid: string): (c: Completion)
    ensures c.st == st
    ensures c.posted == [Rescan, Rescan]
    ensures c.calls == [DownById(ssid), DownByName(ssid)]
  {
    Completion(st, [DownById(ssid), DownByName(ssid)], [Rescan, Rescan])
  }

  /** What one saved-profile attempt posts: a rescan after exit status 0, the
      password fallback after a non-zero exit, a timeout or an exception. */
  function AfterSavedAttempt(ssid: string, run: ToolRun): (cb: Callback)
    ensures cb == Rescan <==> run == Exited(0)
    ensures cb != Rescan ==> cb == PasswordFallback(ssid)
  {
    if run == Exited(0) then Rescan else PasswordFallback(ssid)
  }

  /** `_perform_saved_connection`: `connection up id <ssid>` (with a timeout),
      then `connection up <ssid>`; each posts its own follow-up. No password
      is ever sent. */
  function SavedConnectWorker(st: WifiState, ssid: string, first: ToolRun, second: ToolRun): (c: Completion)
    ensures c.st == st && c.calls == [UpById(ssid), UpByName(ssid)]
    ensures c.posted == [AfterSavedAttempt(ssid, first), AfterSavedAttempt(ssid, second)]
  {
    Completion(st, [UpById(ssid), UpByName(ssid)],
               [AfterSavedAttempt(ssid, first), AfterSavedAttempt(ssid, second)])
  }

  /** `_perform_connection` with the SSID and password captured by `connect_wifi`.
      Copy one deletes any profile of that name (a timeout is ignored; any other
      exception skips the rest of copy one), then connects with the password;
      copy two connects again without deleting. Each copy posts a rescan
      whatever the exit status: success is computed but never used. */
  function ConnectWorker(st: WifiState, ssid: string, password: string, delete: ToolRun): (c: Completion)
    ensures c.st == st
    ensures c.posted == [Rescan, Rescan]
    ensures |c.calls| == (if delete.Raised? then 2 else 3)
    ensures c.calls[0] == DeleteById(ssid) && c.calls[|c.calls| - 1] == ConnectWithPassword(ssid, password)
  {
    var copyOne := [DeleteById(ssid)] + (if delete.Raised? then [] else [ConnectWithPassword(ssid, password)]);
    Completion(st, copyOne + [ConnectWithPassword(ssid, password)], [Rescan, Rescan])
  }

  // ---------------------------------------------------------------------------
  // Flows across events
  // ---------------------------------------------------------------------------

  /** Selecting an inactive network with a saved profile: a saved-profile job is
      started and the page stays; no password is sent; when the first attempt
      fails the first callback shows the password page for that SSID with the
      fallback status, and when it succeeds the first callback is a rescan. */
  lemma SavedProfileFlow(st: WifiState, ssid: string, names: Option<string>, first: ToolRun, second: ToolRun)
    requires HasSavedProfile(ssid, names)
    ensures var p := PrepareConnectionEvent(st, ssid, names);
      && p.commands == [Spawn(SavedConnectJob(ssid))]
      && p.st.subscreen == st.subscreen
      && var c := SavedConnectWorker(p.st, ssid, first, second);
      && (forall k :: 0 <= k < |c.calls| ==> !c.calls[k].ConnectWithPassword?)
      && (first != Exited(0) ==>
            var after := ApplyCallback(c.st, c.posted[0]).st;
            && after.subscreen == PasswordView
            && after.selected == ssid
            && after.passInput == ""
            && after.status == FallbackStatus())
      && (first == Exited(0) ==> c.posted[0] == Rescan)
  {
    var p := PrepareConnectionEvent(st, ssid, names);
    assert p.commands == [Spawn(SavedConnectJob(ssid))] && p.st.subscreen == st.subscreen;
    SavedAttemptOutcome(p.st, ssid, first, second);
  }

  /** The saved-profile worker sends no password; a failed first attempt
      leads to the password page and a successful one to a rescan. */
  lemma SavedAttemptOutcome(st: WifiState, ssid: string, first: ToolRun, second: ToolRun)
    ensures var c := SavedConnectWorker(st, ssid, first, second);
      && (forall k :: 0 <= k < |c.calls| ==> !c.calls[k].ConnectWithPassword?)
      && (first != Exited(0) ==>
            var after := ApplyCallback(c.st, c.posted[0]).st;
            && after.subscreen == PasswordView
            && after.selected == ssid
            && after.passInput == ""
            && after.status == FallbackStatus())
      && (first == Exited(0) ==> c.posted[0] == Rescan)
  {
    var c := SavedConnectWorker(st, ssid, first, second);
    assert c.calls == [UpById(ssid), UpByName(ssid)];
    if first != Exited(0) {
      assert c.posted[0] == PasswordFallback(ssid);
      var after := ApplyCallback(c.st, c.posted[0]).st;
      assert after == ShowPasswordScreen(c.st, ssid).(status := FallbackStatus());
    }
  }

  /** Selecting an inactive network without a saved profile — including when the
      profile query failed — goes straight to the password page. */
  lemma NoProfileFlow(st: WifiState, ssid: string, names: Option<string>)
    requires !HasSavedProfile(ssid, names)
    ensures var p := PrepareConnectionEvent(st, ssid, names);
      && p.commands == []
      && p.st.subscreen == PasswordView
      && p.st.selected == ssid
      && p.st.status == st.status
  {
  }

  /** Because both copies of the saved-profile worker run, a first attempt that
      succeeds followed by a second that fails ends on the password page for
      that SSID. The first copy posts its rescan two seconds ahead and the
      second its fallback at once, so the clock may run them in either order:
      in posting order the fallback status is left showing; with the fallback
      first, a rescan that starts a scan replaces it with the scanning status. */
  lemma SavedSecondCopyDecides(st: WifiState, ssid: string, second: ToolRun)
    requires second != Exited(0)
    ensures var c := SavedConnectWorker(st, ssid, Exited(0), second);
      && c.posted == [Rescan, PasswordFallback(ssid)]
      && var posted := ApplyCallbacks(c.st, c.posted).st;
      && var due := ApplyCallbacks(c.st, [c.posted[1], c.posted[0]]).st;
      && posted.subscreen == PasswordView && posted.selected == ssid
      && posted.status == FallbackStatus()
      && due.subscreen == PasswordView && due.selected == ssid
      && (c.st.switchOn && !c.st.scanning ==> due.status == "Scanning for networks...")
  {
    var c := SavedConnectWorker(st, ssid, Exited(0), second);
    assert c.posted == [Rescan, PasswordFallback(ssid)];
    var s1 := ApplyCallback(c.st, Rescan);
    assert ApplyCallbacks(s1.st, [PasswordFallback(ssid)]).st
      == ApplyCallback(s1.st, PasswordFallback(ssid)).st;
    var f1 := ApplyCallback(c.st, PasswordFallback(ssid));
    assert ApplyCallbacks(f1.st, [Rescan]).st == ApplyCallback(f1.st, Rescan).st;
  }

  /** Submitting a password starts exactly one connect job for the selected SSID
      and the typed password; that job, whatever the tools report, ends with a
      connect attempt and leaves behind one scan. */
  lemma PasswordConnectEndsInRescan(st: WifiState, delete: ToolRun)
    ensures var p := ConnectWifi(st);
      && p.commands == [Spawn(ConnectJob(st.selected, st.passInput))]
      && var c := ConnectWorker(p.st, st.selected, st.passInput, delete);
      && c.calls[|c.calls| - 1] == ConnectWithPassword(st.selected, st.passInput)
      && ApplyCallbacks(c.st, c.posted) == ScanWifi(p.st)
  {
    var p := ConnectWifi(st);
    DoubleRescanScansOnce(p.st);
  }

  /** A disconnect, whatever the tool reports, leaves behind one scan. */
  lemma DisconnectEndsInRescan(st: WifiState, ssid: string)
    ensures var p := DisconnectWifi(st, ssid);
      var c := DisconnectWorker(p.st, ssid);
      ApplyCallbacks(c.st, c.posted) == ScanWifi(p.st)
  {
    var p := DisconnectWifi(st, ssid);
    DoubleRescanScansOnce(p.st);
  }
}
